=== FILE: README.md ===
# QRoutineRunner: a Dafny model of the Lp3-Sims routine scheduler

This project models `lp3::sims::QRoutineRunner`. It is a single-threaded, cooperative
scheduler of "routines" over integer virtual time. It also models the resumable routine
bodies written with `CoroutineState`, `LP3_COROUTINE_BEGIN` and `LP3_YIELD`.

The scheduler's own sources (`qroutines.hpp`, `coroutine.hpp`) are not part of this model.
Its behaviour is reconstructed from `tests/qroutines_tests.cpp`. That file fixes:
- the history each test's routines append to;
- `proc_count` after every call;
- the value `process_events` returns in its "until idle" loop.

The model has four parts:

- `Coroutine` (coroutine.dfy): routine bodies as a closed datatype with an explicit resume point.
  - `Step` runs one segment.
  - Each step returns the body with its resume point moved on, the characters it appends,
    the routines it registers (`runner.run` from inside a body), and either
    `Continue(delta)` (a `SleepTime`) or `Done` (`std::nullopt`).
  - The bodies are exactly those of the tests:
    - a one-shot lambda;
    - the '1'/'3' two-segment routine;
    - the spawning loop, whose counter `spawn` survives every yield;
    - its children.
  - `Work` and `Out` are reference counts: how many invocations a body still stands for, and
    how many characters it still has to append.
- `WakeStore` (wake_store.dfy): the registered slots `(id, wake, body)`.
  - the choice of the slot to invoke next: earliest wake first, equal wakes in ascending id;
  - removal by identity;
  - the counts kept over the slots.
- `QRoutines` (qroutines.dfy): the runner `{now, nextId, slots, history}` and its operations.
  - `Run` is `run`.
  - `Cancel` is `cancel`.
  - `ProcCount` is `proc_count`.
  - `ProcessEvents` is `process_events`. It is a discrete-event drain to `target = now + elapsed`:
    - the earliest due slot is invoked with the clock set to its wake time;
    - a continuation is due again at the slot's own wake time plus delta;
    - a slot that is done is removed;
    - routines registered by a body are due at the clock plus their delay;
    - at the end the clock is `target`, and the call returns whether any routine is pending.
- `RunnerFacts` (runner_facts.dfy): properties for every runner. They cover ordering, lateness,
  cancellation, conservation of work and output, the invariant of every reachable runner, and
  termination of "process events until it returns false".
- `Scenarios` (scenarios.dfy): each of the five test cases replayed call by call.

The model fixes three policies of the drain. Each is either forced or left open by the tests:

- **Continuations count from the routine's own wake time.** A routine that asks to continue
  after delta is due again at its wake time plus delta. It may run several times within one
  `process_events` call. tests:168-172 force this: from time 10, `process_events(49)` must leave
  6 routines pending. That needs the spawning loop to run at 20, 30, 40 and 50 within the one
  call. Re-scheduling at "end of the call plus delta" would leave 3 pending.
- **Routines registered by a running body go straight into the store.** They are due at the
  clock of the invocation plus their delay, and they run in the same call once due
  (`RegisteredRunsSameCall`). The tests reach this policy only in the loop of tests:184-189.
  From time 60, `process_events(1000)` drains up to 1060, and children 6..99 are registered
  during that call with wake times 120..1050. In the model they all run in that call, so its
  first call already returns false. If children were held back until the next call, the loop
  would take more calls. The test checks only the totals at tests:188-189, so both choices pass it.
  The tests also leave open whether a child's delay counts from the wake time of the invocation
  that registers it, as modelled, or from the end of the call.
- **Equal wake times run in ascending identity order**, that is, in registration order. The
  tests allow this: at tests:177-181 the spawning loop and child 0 are both due at 60. The test
  only counts the outcome, which is the same in either order.

A negative registration delay counts as zero. `run` only receives delays 0, 3, 10, 20, 30, 35
and 50 in the tests.

## Model

| member | source | states |
|---|---|---|
| Coroutine.Step | tests/qroutines_tests.cpp:13-146 | models one invocation of each body of the tests: the one-shot lambdas of tests:13-24 append '2' or '1', those of tests:50-53 and 75-76 append nothing (they only print), and all return `nullopt`; the routine of tests:86-98 appends '1', yields 10, then appends '3' and returns `nullopt`; the loop of tests:130-146 registers a child with delay 50 and yields 10 per iteration, returning `nullopt` past iteration 99. Its contract states that every continuation and registration delay lies between 1 and `Horizon` (50) |
| Coroutine.StepConserves | tests/qroutines_tests.cpp:129-147 | one invocation uses exactly one unit of a body's work and hands the rest to the resumed body and to the routines it registered; likewise for the characters still to be appended |
| Coroutine.Invocations | tests/qroutines_tests.cpp:130-146 | invoking a body until it returns `nullopt` takes at least one and at most `Work(b)` invocations, the first being one `Step` |
| Coroutine.WorkCountsInvocations | tests/qroutines_tests.cpp:130-146 | a body's work is exactly the invocations it still makes plus the work of every routine it registers on the way; a body's count of pending characters is exactly the number those invocations append plus the count of those routines |
| Coroutine.ChildrenFromIndices | tests/qroutines_tests.cpp:132-141 | from counter `k` the loop registers `100 - k` children, the j-th capturing counter `k + j`, each with delay 50 |
| Coroutine.SpawnerResumes | tests/qroutines_tests.cpp:131-143 | resuming just after the yield of iteration `s` increments the surviving counter and registers exactly the children `s+1 .. 99`, then ends |
| Coroutine.SpawnerSpawnsEachChildOnce | tests/qroutines_tests.cpp:128-147 | whatever the counter held before (80 in the test), the loop registers children 0..99 in order, each once, and returns `nullopt` on its 101st invocation |
| Coroutine.TwoSegmentRunsEachSegmentOnce | tests/qroutines_tests.cpp:86-98 | the yielding routine runs segment '1', sleeps 10, resumes at segment '3' and stops: each segment exactly once |
| WakeStore.Earliest | tests/qroutines_tests.cpp:36-41 | the slot chosen is not preceded by any slot in (wake, id) order |
| WakeStore.Due | tests/qroutines_tests.cpp:31-41 | a slot is chosen exactly when some slot is due by the target, and then it is the earliest and due |
| WakeStore.WithoutCounts | tests/qroutines_tests.cpp:56-58 | removing an absent identity changes nothing; removing a present one from slots with unique ids removes exactly one slot |
| WakeStore.WithoutKeepsOthers | tests/qroutines_tests.cpp:57 | removal by identity keeps every slot with another identity |
| WakeStore.IdsCount | tests/qroutines_tests.cpp:29 | with unique identities there are exactly as many pending identities as slots |
| QRoutines.Init | tests/qroutines_tests.cpp:10-11 | a fresh runner satisfies the invariant, has no routine and an empty history |
| QRoutines.ProcCountCounts | tests/qroutines_tests.cpp:28-29 | `proc_count` equals the number of distinct pending identities, and is zero exactly when no identity is pending |
| QRoutines.Run | tests/qroutines_tests.cpp:12-29 | `run` returns a fresh identity larger than all handed out, keeps every existing slot as it was and appends exactly one slot holding the body and that identity, due at clock plus delay (negative counts as zero); it runs nothing and keeps the invariant |
| QRoutines.Cancel | tests/qroutines_tests.cpp:49-58 | `cancel` keeps only slots already present, leaves no slot with the identity, is a no-op for an unknown identity, lowers `proc_count` by one for a pending one, and keeps the invariant |
| QRoutines.RunAllRegisters | tests/qroutines_tests.cpp:134-141 | the routines a body registers are appended after the existing slots with consecutive fresh identities |
| QRoutines.FireInvokes | tests/qroutines_tests.cpp:168-181 | one invocation inside the drain: the clock moves to the slot's wake time, the history grows by exactly the segment's output, one fresh identity per registered routine, a continuing slot is due `delta` after its own wake with its resume point moved on, a finished slot is gone, and `proc_count` changes by registrations minus one if finished |
| QRoutines.FireSlots | tests/qroutines_tests.cpp:168-172 | after one invocation the store holds the other slots plus only the invoked slot rescheduled later or new routines due later |
| QRoutines.FireKeepsOthers | tests/qroutines_tests.cpp:163-166 | one invocation leaves every other slot in the store unchanged |
| QRoutines.FireProgress | tests/qroutines_tests.cpp:168-172 | invoking the earliest due slot moves the clock forward but not past the target, and if the clock stands still exactly one fewer slot is due at it (the drain terminates) |
| QRoutines.FireConserves | tests/qroutines_tests.cpp:177-181 | one invocation uses one unit of work and appends as many characters as the store no longer owes |
| QRoutines.FireIdentified | tests/qroutines_tests.cpp:134-141 | one invocation keeps identities handed out and unique |
| QRoutines.Drain | tests/qroutines_tests.cpp:168-172 | a drain keeps the clock between its start and the target and leaves only slots due after the target |
| QRoutines.ProcessEvents | tests/qroutines_tests.cpp:184-189 | `process_events` sets the clock to `now + elapsed`, leaves nothing due by then, keeps no slot before the clock, and returns true exactly when `proc_count` is nonzero |
| RunnerFacts.DrainLeavesSlot | tests/qroutines_tests.cpp:31-34 | a slot due after the target stays in the store unchanged and is not invoked |
| RunnerFacts.DueIsFired | tests/qroutines_tests.cpp:36-42 | every slot in the store due by the target is invoked by the drain |
| RunnerFacts.DrainFiredFrom | tests/qroutines_tests.cpp:168-172 | every slot a drain invokes is due within [clock, target] and was in the store or is due after the starting clock |
| RunnerFacts.DrainInOrder | tests/qroutines_tests.cpp:36-41 | a drain invokes its slots in strictly increasing (wake, id) order |
| RunnerFacts.DrainHistory | tests/qroutines_tests.cpp:36-41 | a drain appends to the history exactly the outputs of the segments it invokes, in invocation order |
| RunnerFacts.DrainKeepsGone | tests/qroutines_tests.cpp:57-62 | a drain never brings back or invokes an identity absent from the store |
| RunnerFacts.DrainConserves | tests/qroutines_tests.cpp:183-189 | a drain uses up one unit of work per invocation, only appends to the history, and appends as many characters as the store no longer owes |
| RunnerFacts.ProcessEventsKeepsValid | tests/qroutines_tests.cpp:159-181 | `process_events` keeps the invariant (no slot before the clock, identities handed out and unique) and never lowers the identity counter |
| RunnerFacts.NothingRunsEarly | tests/qroutines_tests.cpp:28-34 | a routine whose wake time lies after `now + elapsed` is not invoked and stays pending unchanged |
| RunnerFacts.QuietTick | tests/qroutines_tests.cpp:158-161 | with nothing due by `now + elapsed`, `process_events` only moves the clock |
| RunnerFacts.RunsInWakeOrder | tests/qroutines_tests.cpp:36-42 | `process_events` invokes every routine pending and due by `now + elapsed`, invokes only routines due within the interval it covers, in wake order with ties by identity, and leaves only later ones pending |
| RunnerFacts.DueRuns | tests/qroutines_tests.cpp:36-42 | every routine pending and due by `now + elapsed` is invoked by `process_events` |
| RunnerFacts.RegisteredRunsSameCall | tests/qroutines_tests.cpp:184-189 | a routine registered by an invocation (or the invoking routine resumed) and due by the drain's target runs within the same drain, not in a later `process_events` call |
| RunnerFacts.CancelledNeverRuns | tests/qroutines_tests.cpp:47-62 | after `cancel`, the count drops at once and the next `process_events` neither invokes nor brings back the routine |
| RunnerFacts.GoneStaysGone | tests/qroutines_tests.cpp:59-62 | an identity absent from the store stays absent and is never invoked by a further `process_events` |
| RunnerFacts.CancelKeepsOthers | tests/qroutines_tests.cpp:57 | `cancel` keeps every other routine |
| RunnerFacts.CancelUndoesRun | tests/qroutines_tests.cpp:49-58 | `cancel` right after `run` restores the store; only the identity counter has moved on |
| RunnerFacts.ProcessEventsConserves | tests/qroutines_tests.cpp:183-189 | the pending work drops by the number of invocations, and the history only grows, by as many characters as the pending routines no longer owe |
| RunnerFacts.ProcessEventsHistory | tests/qroutines_tests.cpp:111-118 | `process_events` appends to the history exactly the outputs of the segments it invokes, in the order of `Invoked` |
| RunnerFacts.ProcessEventsProgress | tests/qroutines_tests.cpp:183-186 | with every routine due within 50 and a call of at least 50, a call with anything pending invokes something and keeps everything due within 50 of the new clock |
| RunnerFacts.DrainUntilIdle | tests/qroutines_tests.cpp:183-189 | "process events until it returns false" ends with `proc_count` 0 and the history extended (never rewritten) by as many characters as the pending routines owed |
| RunnerFacts.Replay | tests/qroutines_tests.cpp:9-192 | every runner reached from a fresh one by any sequence of `run`, `cancel` and `process_events` keeps the invariant, and its clock never goes back |
| Scenarios.BasicFirstPulse | tests/qroutines_tests.cpp:31-34 | a pulse ending before 20 leaves both routines pending and the history empty |
| Scenarios.BasicSecondPulse | tests/qroutines_tests.cpp:36-42 | a pulse reaching 30 runs the delay-20 routine then the delay-30 one: history "12", count 0 |
| Scenarios.CancelBeforeRun | tests/qroutines_tests.cpp:47-62 | count 1, then 0 after `cancel`, and pulses of 0 and 1000 invoke nothing and keep it 0 |
| Scenarios.RunsWithZeroDelay | tests/qroutines_tests.cpp:66-78 | a routine registered with delay 0 is pending until a pulse, which runs it exactly once |
| Scenarios.SleepingRoutines | tests/qroutines_tests.cpp:108-119 | with pulses of 5, nothing runs up to 25, and from the eighth pulse on (so after twelve) the history is "123" with count 0 |
| Scenarios.SpawnPulseAt59 | tests/qroutines_tests.cpp:168-172 | `process_events(49)` from 10 runs the loop at 20, 30, 40 and 50: six routines pending, no child run |
| Scenarios.SpawnPulseAt60 | tests/qroutines_tests.cpp:177-181 | the pulse of 1 runs the loop's iteration at 60 and child 0: one 'c', six pending |
| Scenarios.KickingOffRoutines | tests/qroutines_tests.cpp:155-181 | the counts 1, 1, 2, 6, 6 and history sizes 0, 0, 0, 0, 1 after each call of the test |
| Scenarios.OutputLeftAt60 | tests/qroutines_tests.cpp:177-188 | after the pulse ending at 60, the pending routines owe exactly 99 more characters |
| Scenarios.AllChildrenRun | tests/qroutines_tests.cpp:183-189 | looping `process_events(1000)` until it returns false ends with 100 characters of history and count 0 |

## Left out

- The wall clock: `Timer`, `FrameTimer` and `GameClock` in include/lp3/sims/Clock.hpp. They read real time and compute floating-point rates, and the scheduler does not depend on them.
- `EventSimulator`. It only forwards to the runner and to an event dispatcher that is not part of this model. Its `emit` registers a one-shot routine, which `OneShot` covers.
- `fmt::print` logging and the Catch2 test framework. They are I/O and have no effect on the scheduler.
- The shared `std::vector<char>` written through by-reference captures is modelled as the runner's `history`.
- The routine bodies are a closed datatype of the tests' routines, not arbitrary closures. Arbitrary C++ code cannot be modelled.
- The argument-carrying lambda of tests:66-80 is a `OneShot` with empty output, since it only logs.
- A continuation or registration delay of 0 is never produced by the modelled bodies (`Step` keeps both between 1 and 50). This is what makes the drain terminate. The tests only use 10 and 50.
- Cancelling from inside a running body is not modelled. No test body calls `cancel`, and the modelled bodies have no way to cancel.
- Integer widths: `SleepTime`, the clock and identities are unbounded naturals. The tests never come near any overflow.
- RunnerFacts.DrainUntilIdle: requires every pending routine to be due within 50 of the clock and each call to cover at least 50. For other inputs the source loop need not end (`process_events(0)` with a routine pending loops forever). The tests' loop (`process_events(1000)` from the state after 60) meets the requirement.

=== FILE: coroutine.dfy ===
/** Routine bodies written as explicit resume points.

    A routine body of the scheduler is a closure that, each time it is invoked,
    runs one segment and returns either "continue after delta" or "done" (the
    `std::optional<SleepTime>` of the source). Multi-segment bodies written with
    `LP3_COROUTINE_BEGIN` / `LP3_YIELD` keep a resume point that says which
    segment runs next; here that resume point is the `pc` tag of the body,
    together with the locals that must survive a suspension.

    The bodies modelled are exactly the routines of tests/qroutines_tests.cpp. */
module Coroutine {

  /** The longest sleep any modelled body asks for, as a continuation or as the
      delay of a routine it registers. */
  const Horizon: nat := 50

  /** Loop bound, child delay and period of the spawning routine (tests:131-143). */
  const SpawnCount: int := 100
  const ChildDelay: nat := 50
  const SpawnPeriod: nat := 10

  /** The pause of the two-segment routine between its segments (tests:91). */
  const SleepyPause: nat := 10

  /** The value an invocation returns: `SleepTime` (continue after delta) or `nullopt`. */
  datatype Next = Continue(delta: nat) | Done

  /** A call of `runner.run(body, delay)` made by a body while it runs. */
  datatype Spawn = Spawn(body: Body, delay: nat)

  /** Everything one invocation does: the body with its resume point moved on,
      the characters it appends to the shared history, the routines it
      registers, and what it returns. */
  datatype Outcome = Outcome(body: Body, out: string, spawns: seq<Spawn>, next: Next)

  /** The routine bodies of the tests.
      - OneShot(out): a plain lambda that appends `out` and returns `nullopt`.
      - TwoSegment(pc): appends '1', yields 10, appends '3', yields `nullopt`;
        pc 0 is the start, 1 is just after the first yield, 2 just after the last.
      - Spawner(pc, spawn): the loop `for (spawn = 0; spawn < 100; ++spawn)` that
        registers a child with delay 50 and yields 10 on each iteration; `spawn`
        is the loop counter that survives the yields, pc 1 is just after the
        yield, pc 2 is past the end of the loop.
      - Child(index): appends 'c' and returns `nullopt`; `index` is the value of
        the loop counter the child captured. */
  datatype Body =
    | OneShot(out: string)
    | TwoSegment(pc: nat)
    | Spawner(pc: nat, spawn: int)
    | Child(index: int)

  /** The spawning loop evaluated at its head with counter `k`. */
  function LoopHead(k: int): Outcome
  {
    if k < SpawnCount then
      Outcome(Spawner(1, k), "", [Spawn(Child(k), ChildDelay)], Continue(SpawnPeriod))
    else
      Outcome(Spawner(2, k), "", [], Done)
  }

  /** One invocation: dispatch on the resume point, run the segment that follows
      it, and record where the next invocation resumes. A body resumed past its
      last segment falls off the end and returns `nullopt` without output. */
  function Step(b: Body): (o: Outcome)
    ensures o.next.Continue? ==> 1 <= o.next.delta <= Horizon
    ensures forall k :: 0 <= k < |o.spawns| ==> 1 <= o.spawns[k].delay <= Horizon
  {
    match b
    case OneShot(out) => Outcome(b, out, [], Done)
    case TwoSegment(pc) =>
      if pc == 0 then Outcome(TwoSegment(1), "1", [], Continue(SleepyPause))
      else if pc == 1 then Outcome(TwoSegment(2), "3", [], Done)
      else Outcome(b, "", [], Done)
    case Spawner(pc, spawn) =>
      if pc == 0 then LoopHead(0)
      else if pc == 1 then LoopHead(spawn + 1)
      else Outcome(b, "", [], Done)
    case Child(_) => Outcome(b, "c", [], Done)
  }

  /** Iterations the spawning loop still runs from its head with counter `k`. */
  function Remaining(k: int): nat
  {
    if k < SpawnCount then SpawnCount - k else 0
  }

  /** Reference count of the invocations a body still stands for: its own,
      up to and including the one that returns `nullopt`, plus those of every
      routine it will still register. */
  function Work(b: Body): nat
  {
    match b
    case OneShot(_) => 1
    case TwoSegment(pc) => if pc == 0 then 2 else 1
    case Spawner(pc, spawn) =>
      if pc == 0 then 1 + 2 * Remaining(0)
      else if pc == 1 then 1 + 2 * Remaining(spawn + 1)
      else 1
    case Child(_) => 1
  }

  /** Reference count of the history characters a body and the routines it
      will still register have yet to append. */
  function Out(b: Body): nat
  {
    match b
    case OneShot(out) => |out|
    case TwoSegment(pc) => if pc == 0 then 2 else if pc == 1 then 1 else 0
    case Spawner(pc, spawn) =>
      if pc == 0 then Remaining(0)
      else if pc == 1 then Remaining(spawn + 1)
      else 0
    case Child(_) => 1
  }

  function SpawnsWork(spawns: seq<Spawn>): nat
  {
    if |spawns| == 0 then 0 else Work(spawns[0].body) + SpawnsWork(spawns[1..])
  }

  function SpawnsOut(spawns: seq<Spawn>): nat
  {
    if |spawns| == 0 then 0 else Out(spawns[0].body) + SpawnsOut(spawns[1..])
  }

  lemma {:induction false} SpawnsAppend(a: seq<Spawn>, b: seq<Spawn>)
    ensures SpawnsWork(a + b) == SpawnsWork(a) + SpawnsWork(b)
    ensures SpawnsOut(a + b) == SpawnsOut(a) + SpawnsOut(b)
    decreases |a|
  {
    if |a| == 0 {
      assert a + b == b;
    } else {
      assert (a + b)[1..] == a[1..] + b;
      SpawnsAppend(a[1..], b);
    }
  }

  /** One invocation uses up exactly one unit of work and hands the rest to the
      resumed body (when it continues) and to the routines it registered; the
      same holds for the characters still to be appended. So no segment is
      skipped or repeated. */
  lemma StepConserves(b: Body)
    ensures var o := Step(b);
      Work(b) == 1 + (if o.next.Continue? then Work(o.body) else 0) + SpawnsWork(o.spawns)
    ensures var o := Step(b);
      Out(b) == |o.out| + (if o.next.Continue? then Out(o.body) else 0) + SpawnsOut(o.spawns)
  {
  }

  /** The outcomes of invoking `b` again and again until it returns `nullopt`. */
  function Invocations(b: Body): (os: seq<Outcome>)
    ensures 1 <= |os| <= Work(b)
    ensures os[0] == Step(b)
    decreases Work(b)
  {
    var o := Step(b);
    StepConserves(b);
    if o.next.Done? then [o] else [o] + Invocations(o.body)
  }

  /** Every registration made along a sequence of invocations, in order. */
  function SpawnLog(os: seq<Outcome>): seq<Spawn>
  {
    if |os| == 0 then [] else os[0].spawns + SpawnLog(os[1..])
  }

  /** Every character appended along a sequence of invocations, in order. */
  function OutLog(os: seq<Outcome>): string
  {
    if |os| == 0 then [] else os[0].out + OutLog(os[1..])
  }

  /** `Work` counts exactly the invocations a body still makes plus the work
      of the routines it registers on the way. */
  lemma {:induction false} WorkCountsInvocations(b: Body)
    ensures Work(b) == |Invocations(b)| + SpawnsWork(SpawnLog(Invocations(b)))
    ensures Out(b) == |OutLog(Invocations(b))| + SpawnsOut(SpawnLog(Invocations(b)))
    decreases Work(b)
  {
    var o := Step(b);
    StepConserves(b);
    var os := Invocations(b);
    if o.next.Done? {
      assert os == [o];
      assert SpawnLog(os) == o.spawns + SpawnLog([]);
      assert OutLog(os) == o.out + OutLog([]);
    } else {
      var rest := Invocations(o.body);
      assert os == [o] + rest;
      assert os[1..] == rest;
      WorkCountsInvocations(o.body);
      SpawnsAppend(o.spawns, SpawnLog(rest));
    }
  }

  /** The children the spawning loop registers from counter `k` to its end. */
  function ChildrenFrom(k: int): seq<Spawn>
    decreases Remaining(k)
  {
    if k < SpawnCount then [Spawn(Child(k), ChildDelay)] + ChildrenFrom(k + 1) else []
  }

  /** From counter `k`, the loop registers one child per remaining counter
      value, in increasing order and each exactly once. */
  lemma {:induction false} ChildrenFromIndices(k: int)
    requires 0 <= k <= SpawnCount
    ensures |ChildrenFrom(k)| == SpawnCount - k
    ensures forall j :: 0 <= j < |ChildrenFrom(k)| ==> ChildrenFrom(k)[j] == Spawn(Child(k + j), ChildDelay)
    decreases SpawnCount - k
  {
    if k < SpawnCount {
      ChildrenFromIndices(k + 1);
    }
  }

  /** Resuming the spawning loop just after the yield of iteration `s`: the
      counter kept in the resume point is incremented, so the remaining
      invocations register exactly the children s + 1, s + 2, ... 99 and then
      the loop ends. */
  lemma {:induction false} SpawnerResumes(s: int)
    ensures SpawnLog(Invocations(Spawner(1, s))) == ChildrenFrom(s + 1)
    ensures |Invocations(Spawner(1, s))| == Remaining(s + 1) + 1
    decreases Remaining(s + 1)
  {
    var b := Spawner(1, s);
    var o := Step(b);
    var os := Invocations(b);
    if s + 1 < SpawnCount {
      var rest := Invocations(Spawner(1, s + 1));
      assert os == [o] + rest;
      assert os[1..] == rest;
      SpawnerResumes(s + 1);
    } else {
      assert os == [o];
      assert SpawnLog(os) == o.spawns + SpawnLog([]);
    }
  }

  /** The spawning routine of tests:129-147, whatever value its captured
      counter held before it started, registers exactly the 100 children
      0, 1, ..., 99 in order, one per invocation, and returns `nullopt` on its
      101st invocation. */
  lemma SpawnerSpawnsEachChildOnce(seed: int)
    ensures SpawnLog(Invocations(Spawner(0, seed))) == ChildrenFrom(0)
    ensures |Invocations(Spawner(0, seed))| == SpawnCount + 1
    ensures |ChildrenFrom(0)| == SpawnCount
    ensures forall j :: 0 <= j < SpawnCount ==> ChildrenFrom(0)[j] == Spawn(Child(j), ChildDelay)
  {
    var b := Spawner(0, seed);
    var o := Step(b);
    var os := Invocations(b);
    var rest := Invocations(Spawner(1, 0));
    assert os == [o] + rest;
    assert os[1..] == rest;
    SpawnerResumes(0);
    ChildrenFromIndices(0);
  }

  /** The routine of tests:86-98 runs its segment '1', then, on its next
      invocation, its segment '3', and stops: each segment exactly once. */
  lemma TwoSegmentRunsEachSegmentOnce()
    ensures Invocations(TwoSegment(0)) ==
      [Outcome(TwoSegment(1), "1", [], Continue(SleepyPause)), Outcome(TwoSegment(2), "3", [], Done)]
    ensures OutLog(Invocations(TwoSegment(0))) == "13"
  {
    var os := Invocations(TwoSegment(0));
    assert os == [Step(TwoSegment(0))] + Invocations(TwoSegment(1));
    assert Invocations(TwoSegment(1)) == [Step(TwoSegment(1))];
    assert OutLog(os) == "1" + OutLog(os[1..]);
    assert OutLog(os[1..]) == "3" + OutLog([]);
  }
}

=== FILE: qroutines.dfy ===
/** The cooperative, virtual-time routine scheduler (`QRoutineRunner`).

    The runner keeps a virtual clock, the next identity to hand out, the
    registered slots and, standing in for the vector the test routines append
    to, the shared history. Its operations are `run`, `cancel`,
    `process_events` and `proc_count`.

    `process_events(elapsed)` is a discrete-event drain: with
    `target = now + elapsed` it repeatedly invokes the earliest slot due by
    `target`, first setting the clock to that slot's wake time. A slot that
    continues after delta is due again at its own wake time plus delta, so it
    may run several times within one call; a slot that is done is removed.
    Routines registered by a running body are due at the clock plus their
    delay and take part in the same drain once due. Finally the clock is set
    to `target`. */
module QRoutines {
  import opened Coroutine
  import opened WakeStore

  datatype Runner = Runner(now: nat, nextId: nat, slots: seq<Slot>, history: string)

  /** The runner after `run`, and the identity `run` returned. */
  datatype Registered = Registered(runner: Runner, id: nat)

  /** The runner after a drain, and the slots invoked, in order, each as it
      was when it was chosen. */
  datatype Tick = Tick(runner: Runner, fired: seq<Slot>)

  /** The runner after `process_events`, and the value it returned. */
  datatype Processed = Processed(runner: Runner, pending: bool)

  /** No slot is due before the clock. */
  predicate WellTimed(r: Runner)
  {
    WakesFrom(r.slots, r.now)
  }

  /** Every identity in the store was handed out and is held by one slot only. */
  predicate Identified(r: Runner)
  {
    IdsBelow(r.slots, r.nextId) && UniqueIds(r.slots)
  }

  /** The invariant of every runner reachable from `Init` (see RunnerFacts). */
  predicate Valid(r: Runner)
  {
    WellTimed(r) && Identified(r)
  }

  /** `proc_count`: the routines neither done nor cancelled. */
  function ProcCount(r: Runner): nat
  {
    |r.slots|
  }

  /** `proc_count` counts the routines pending: with identities handed out
      and unique, one per pending identity; zero exactly when no identity is
      pending. */
  lemma ProcCountCounts(r: Runner)
    ensures Identified(r) ==> ProcCount(r) == |Ids(r.slots)|
    ensures ProcCount(r) == 0 <==> Ids(r.slots) == {}
  {
    if UniqueIds(r.slots) {
      IdsCount(r.slots);
    }
    if |r.slots| > 0 {
      assert r.slots[0].id in Ids(r.slots);
    }
  }

  /** A freshly constructed runner. */
  function Init(): (r: Runner)
    ensures Valid(r)
    ensures ProcCount(r) == 0 && r.history == []
  {
    Runner(0, 0, [], [])
  }

  /** `run(body, delay)`: registers the body to be first invoked `delay` after
      the current clock (a negative delay counts as zero) and returns a fresh
      identity, larger than every identity handed out before. The body is not
      invoked here, whatever the delay. */
  function Run(r: Runner, body: Body, delay: int): (reg: Registered)
    ensures reg.id == r.nextId < reg.runner.nextId
    ensures IdsBelow(r.slots, r.nextId) ==> !HasId(r.slots, reg.id)
    ensures HasId(reg.runner.slots, reg.id)
    ensures ProcCount(reg.runner) == ProcCount(r) + 1
    ensures reg.runner.now == r.now && reg.runner.history == r.history
    ensures reg.runner.slots[..|r.slots|] == r.slots
    ensures reg.runner.slots[|r.slots|] == Slot(reg.id, r.now + (if delay < 0 then 0 else delay), body)
    ensures Valid(r) ==> Valid(reg.runner)
  {
    var wake := if delay < 0 then r.now else r.now + delay;
    var s := Slot(r.nextId, wake, body);
    var r' := r.(nextId := r.nextId + 1, slots := r.slots + [s]);
    assert r'.slots[|r.slots|] == s;
    Registered(r', r.nextId)
  }

  /** `cancel(id)`: removes the slot with that identity at once; an identity
      that is unknown, done or already cancelled leaves the runner as it is. */
  function Cancel(r: Runner, id: nat): (r': Runner)
    ensures forall k :: 0 <= k < |r'.slots| ==> r'.slots[k] in r.slots && r'.slots[k].id != id
    ensures !HasId(r'.slots, id)
    ensures r'.now == r.now && r'.nextId == r.nextId && r'.history == r.history
    ensures !HasId(r.slots, id) ==> r' == r
    ensures Identified(r) && HasId(r.slots, id) ==> ProcCount(r') == ProcCount(r) - 1
    ensures Valid(r) ==> Valid(r')
  {
    WithoutCounts(r.slots, id);
    if UniqueIds(r.slots) then
      WithoutUnique(r.slots, id);
      r.(slots := Without(r.slots, id))
    else
      r.(slots := Without(r.slots, id))
  }

  /** The routines a running body registers, each through `run` at the
      runner's current clock. */
  function RunAll(r: Runner, spawns: seq<Spawn>): Runner
    decreases |spawns|
  {
    if |spawns| == 0 then r
    else RunAll(Run(r, spawns[0].body, spawns[0].delay).runner, spawns[1..])
  }

  lemma {:induction false} RunAllRegisters(r: Runner, spawns: seq<Spawn>)
    ensures RunAll(r, spawns) ==
      r.(nextId := r.nextId + |spawns|, slots := r.slots + Spawned(spawns, r.now, r.nextId))
    decreases |spawns|
  {
    if |spawns| > 0 {
      var r1 := Run(r, spawns[0].body, spawns[0].delay).runner;
      var s := Slot(r.nextId, r.now + spawns[0].delay, spawns[0].body);
      assert r1 == r.(nextId := r.nextId + 1, slots := r.slots + [s]);
      RunAllRegisters(r1, spawns[1..]);
      assert Spawned(spawns, r.now, r.nextId) == [s] + Spawned(spawns[1..], r.now, r.nextId + 1);
      assert r1.slots + Spawned(spawns[1..], r.now, r.nextId + 1)
          == r.slots + Spawned(spawns, r.now, r.nextId);
    }
  }

  /** The store after invoking `slots[i]` with outcome `o`: the slot is
      removed when it is done, and otherwise is due again `delta` after its own
      wake time with its resume point moved on. */
  function Resumed(slots: seq<Slot>, i: nat, o: Outcome): seq<Slot>
    requires i < |slots|
  {
    match o.next
    case Done => RemoveAt(slots, i)
    case Continue(delta) => slots[i := Slot(slots[i].id, slots[i].wake + delta, o.body)]
  }

  /** Invokes the slot at index `i`: the clock moves to its wake time, the body
      runs one segment, appends to the history and registers its children,
      and the slot is rescheduled or removed. */
  function Fire(r: Runner, i: nat): Runner
    requires i < |r.slots|
  {
    var s := r.slots[i];
    var o := Step(s.body);
    RunAll(Runner(s.wake, r.nextId, Resumed(r.slots, i, o), r.history + o.out), o.spawns)
  }

  lemma FireShape(r: Runner, i: nat)
    requires i < |r.slots|
    ensures var s := r.slots[i]; var o := Step(s.body);
      Fire(r, i) == Runner(s.wake, r.nextId + |o.spawns|,
                           Resumed(r.slots, i, o) + Spawned(o.spawns, s.wake, r.nextId),
                           r.history + o.out)
  {
    var s := r.slots[i];
    var o := Step(s.body);
    RunAllRegisters(Runner(s.wake, r.nextId, Resumed(r.slots, i, o), r.history + o.out), o.spawns);
  }

  /** One invocation of the slot at index `i`: the clock moves to the slot's
      wake time, the history grows by exactly the segment's output, one
      fresh identity is handed out per routine the segment registers, a
      continuing slot stays at its index with its resume point moved on and
      due `delta` after its own wake time, a finished slot is no longer
      pending, and `proc_count` changes accordingly. */
  lemma FireInvokes(r: Runner, i: nat)
    requires i < |r.slots|
    ensures Fire(r, i).now == r.slots[i].wake
    ensures Fire(r, i).history == r.history + Step(r.slots[i].body).out
    ensures Fire(r, i).nextId == r.nextId + |Step(r.slots[i].body).spawns|
    ensures ProcCount(Fire(r, i)) + (if Step(r.slots[i].body).next.Done? then 1 else 0)
         == ProcCount(r) + |Step(r.slots[i].body).spawns|
    ensures Step(r.slots[i].body).next.Continue? ==>
      Fire(r, i).slots[i] == Slot(r.slots[i].id, r.slots[i].wake + Step(r.slots[i].body).next.delta,
                                  Step(r.slots[i].body).body)
    ensures Step(r.slots[i].body).next.Done? && UniqueIds(r.slots) ==> !HasId(Fire(r, i).slots, r.slots[i].id)
  {
    var s := r.slots[i];
    var o := Step(s.body);
    var kept := Resumed(r.slots, i, o);
    var kids := Spawned(o.spawns, s.wake, r.nextId);
    FireShape(r, i);
    SpawnedShape(o.spawns, s.wake, r.nextId);
    assert Fire(r, i).slots == kept + kids;
    if o.next.Done? {
      RemoveAtIndex(r.slots, i);
    } else {
      assert Fire(r, i).slots[i] == kept[i];
    }
  }

  /** What the store holds after a firing: besides the other slots, only the
      fired slot rescheduled later, or new slots with fresh identities due
      later than the firing. */
  lemma FireSlots(r: Runner, i: nat)
    requires i < |r.slots|
    ensures forall x :: x in Fire(r, i).slots ==>
      (exists j :: 0 <= j < |r.slots| && j != i && x == r.slots[j]) ||
      (r.slots[i].wake < x.wake && (x.id == r.slots[i].id || r.nextId <= x.id < Fire(r, i).nextId))
    ensures r.nextId <= Fire(r, i).nextId
  {
    var s := r.slots[i];
    var o := Step(s.body);
    var kept := Resumed(r.slots, i, o);
    var kids := Spawned(o.spawns, s.wake, r.nextId);
    FireShape(r, i);
    SpawnedShape(o.spawns, s.wake, r.nextId);
    var r' := Fire(r, i);
    assert r'.slots == kept + kids;
    if o.next.Done? {
      RemoveAtIndex(r.slots, i);
    }
    forall x | x in r'.slots
      ensures (exists j :: 0 <= j < |r.slots| && j != i && x == r.slots[j]) ||
              (s.wake < x.wake && (x.id == s.id || r.nextId <= x.id < r'.nextId))
    {
      if x in kept {
        var m :| 0 <= m < |kept| && kept[m] == x;
        if o.next.Done? {
          if m < i {
            assert x == r.slots[m];
          } else {
            assert x == r.slots[m + 1];
          }
        } else if m != i {
          assert x == r.slots[m];
        }
      } else {
        var k :| 0 <= k < |kids| && kids[k] == x;
      }
    }
  }

  /** A firing leaves every other slot in the store unchanged. */
  lemma FireKeepsOthers(r: Runner, i: nat, j: nat)
    requires i < |r.slots| && j < |r.slots| && j != i
    ensures r.slots[j] in Fire(r, i).slots
  {
    var s := r.slots[i];
    var o := Step(s.body);
    var kept := Resumed(r.slots, i, o);
    var kids := Spawned(o.spawns, s.wake, r.nextId);
    FireShape(r, i);
    var r' := Fire(r, i);
    assert r'.slots == kept + kids;
    if o.next.Done? {
      RemoveAtIndex(r.slots, i);
      if j > i {
        assert r'.slots[j - 1] == r.slots[j];
      } else {
        assert r'.slots[j] == r.slots[j];
      }
    } else {
      assert r'.slots[j] == r.slots[j];
    }
  }

  /** Everything in the store after a firing of the earliest slot is to be
      invoked after it. */
  lemma FireLeavesLater(r: Runner, i: nat, y: Slot)
    requires IsEarliest(r.slots, i) && UniqueIds(r.slots)
    requires y in Fire(r, i).slots
    ensures Before(r.slots[i], y)
  {
    FireSlots(r, i);
    var s := r.slots[i];
    if exists j :: 0 <= j < |r.slots| && j != i && y == r.slots[j] {
      var j :| 0 <= j < |r.slots| && j != i && y == r.slots[j];
      assert !Before(r.slots[j], s);
      assert r.slots[j].id != s.id;
    }
  }

  /** Rescheduling or removing one slot keeps identities bounded and unique. */
  lemma ResumedIdentified(slots: seq<Slot>, i: nat, o: Outcome, next: nat)
    requires i < |slots|
    requires IdsBelow(slots, next) && UniqueIds(slots)
    ensures IdsBelow(Resumed(slots, i, o), next) && UniqueIds(Resumed(slots, i, o))
  {
    if o.next.Done? {
      RemoveAtIdentified(slots, i, next);
    } else {
      var kept := Resumed(slots, i, o);
      assert forall m :: 0 <= m < |kept| ==> kept[m].id == slots[m].id;
    }
  }

  lemma RemoveAtIdentified(slots: seq<Slot>, i: nat, next: nat)
    requires i < |slots|
    requires IdsBelow(slots, next) && UniqueIds(slots)
    ensures IdsBelow(RemoveAt(slots, i), next) && UniqueIds(RemoveAt(slots, i))
  {
    var kept := RemoveAt(slots, i);
    RemoveAtIndex(slots, i);
    assert forall m :: 0 <= m < |kept| ==> kept[m] == slots[if m < i then m else m + 1];
  }

  /** Appending slots with fresh identities keeps identities bounded and unique. */
  lemma AppendFreshIdentified(kept: seq<Slot>, kids: seq<Slot>, next: nat, next': nat)
    requires IdsBelow(kept, next) && UniqueIds(kept) && next <= next'
    requires forall k :: 0 <= k < |kids| ==> kids[k].id == next + k < next'
    ensures IdsBelow(kept + kids, next') && UniqueIds(kept + kids)
  {
    var all := kept + kids;
    forall a, b | 0 <= a < b < |all|
      ensures all[a].id != all[b].id
    {
      if b >= |kept| {
        assert all[b] == kids[b - |kept|];
        if a >= |kept| {
          assert all[a] == kids[a - |kept|];
        }
      }
    }
    forall a | 0 <= a < |all|
      ensures all[a].id < next'
    {
      if a >= |kept| {
        assert all[a] == kids[a - |kept|];
      } else {
        assert all[a] == kept[a];
      }
    }
  }

  /** A firing keeps identities handed out and unique. */
  lemma FireIdentified(r: Runner, i: nat)
    requires i < |r.slots|
    requires Identified(r)
    ensures Identified(Fire(r, i))
  {
    var s := r.slots[i];
    var o := Step(s.body);
    FireShape(r, i);
    SpawnedShape(o.spawns, s.wake, r.nextId);
    ResumedIdentified(r.slots, i, o, r.nextId);
    AppendFreshIdentified(Resumed(r.slots, i, o), Spawned(o.spawns, s.wake, r.nextId),
                          r.nextId, r.nextId + |o.spawns|);
  }

  /** A firing never brings back an identity that is not in the store. */
  lemma FireKeepsGone(r: Runner, i: nat, id: nat)
    requires i < |r.slots|
    requires !HasId(r.slots, id) && id < r.nextId
    ensures !HasId(Fire(r, i).slots, id) && id < Fire(r, i).nextId
  {
    var s := r.slots[i];
    var o := Step(s.body);
    var kept := Resumed(r.slots, i, o);
    var kids := Spawned(o.spawns, s.wake, r.nextId);
    FireShape(r, i);
    SpawnedShape(o.spawns, s.wake, r.nextId);
    if o.next.Done? {
      RemoveAtIndex(r.slots, i);
      assert forall m :: 0 <= m < |kept| ==> kept[m] == r.slots[if m < i then m else m + 1];
    } else {
      assert forall m :: 0 <= m < |kept| ==> kept[m].id == r.slots[m].id;
    }
    assert Fire(r, i).slots == kept + kids;
  }

  /** A firing of the earliest slot due by `target` moves the clock forward
      but not past `target`, schedules nothing before the new clock, and when
      the clock stands still there is one slot fewer due at it. This is what
      makes a drain finish. */
  lemma FireProgress(r: Runner, i: nat, target: nat)
    requires WellTimed(r) && r.now <= target
    requires IsEarliest(r.slots, i) && r.slots[i].wake <= target
    ensures r.now <= Fire(r, i).now <= target
    ensures WellTimed(Fire(r, i))
    ensures Fire(r, i).now == r.now ==>
      Total(DueBy(r.now), Fire(r, i).slots) + 1 == Total(DueBy(r.now), r.slots)
  {
    var s := r.slots[i];
    var o := Step(s.body);
    var kept := Resumed(r.slots, i, o);
    var kids := Spawned(o.spawns, s.wake, r.nextId);
    FireShape(r, i);
    FireSlots(r, i);
    var r' := Fire(r, i);
    assert r'.slots == kept + kids;
    forall k | 0 <= k < |r'.slots|
      ensures s.wake <= r'.slots[k].wake
    {
      var x := r'.slots[k];
      assert x in r'.slots;
      if exists j :: 0 <= j < |r.slots| && j != i && x == r.slots[j] {
        var j :| 0 <= j < |r.slots| && j != i && x == r.slots[j];
        assert !Before(r.slots[j], s);
      }
    }
    if s.wake == r.now {
      SpawnedShape(o.spawns, s.wake, r.nextId);
      TotalAppend(DueBy(r.now), kept, kids);
      NoneDue(kids, r.now);
      if o.next.Done? {
        TotalRemoveAt(DueBy(r.now), r.slots, i);
      } else {
        TotalUpdate(DueBy(r.now), r.slots, i, kept[i]);
      }
    }
  }

  /** A firing uses up one unit of work, and appends as many characters as
      the store no longer has to append. */
  lemma FireConserves(r: Runner, i: nat)
    requires i < |r.slots|
    ensures Total(WorkLeft, Fire(r, i).slots) + 1 == Total(WorkLeft, r.slots)
    ensures |Fire(r, i).history| + Total(OutputLeft, Fire(r, i).slots)
         == |r.history| + Total(OutputLeft, r.slots)
  {
    var s := r.slots[i];
    var o := Step(s.body);
    var kept := Resumed(r.slots, i, o);
    var kids := Spawned(o.spawns, s.wake, r.nextId);
    FireShape(r, i);
    SpawnedShape(o.spawns, s.wake, r.nextId);
    StepConserves(s.body);
    TotalAppend(WorkLeft, kept, kids);
    TotalAppend(OutputLeft, kept, kids);
    if o.next.Done? {
      TotalRemoveAt(WorkLeft, r.slots, i);
      TotalRemoveAt(OutputLeft, r.slots, i);
    } else {
      TotalUpdate(WorkLeft, r.slots, i, kept[i]);
      TotalUpdate(OutputLeft, r.slots, i, kept[i]);
    }
  }

  /** A firing at a time no later than `bound - Horizon` schedules nothing
      after `bound`. */
  lemma FireBounded(r: Runner, i: nat, bound: nat)
    requires i < |r.slots|
    requires WakesBy(r.slots, bound) && r.slots[i].wake + Horizon <= bound
    ensures WakesBy(Fire(r, i).slots, bound)
  {
    var s := r.slots[i];
    var o := Step(s.body);
    var kept := Resumed(r.slots, i, o);
    var kids := Spawned(o.spawns, s.wake, r.nextId);
    FireShape(r, i);
    SpawnedShape(o.spawns, s.wake, r.nextId);
    if o.next.Done? {
      RemoveAtIndex(r.slots, i);
    }
    assert WakesBy(kept, bound);
    assert WakesBy(kids, bound);
    assert Fire(r, i).slots == kept + kids;
  }

  /** The drain of `process_events`: invokes the earliest slot due by
      `target` until none is due; afterwards every slot left is due after
      `target`. */
  function Drain(r: Runner, target: nat): (t: Tick)
    requires WellTimed(r) && r.now <= target
    ensures r.now <= t.runner.now <= target
    ensures WakesAfter(t.runner.slots, target)
    decreases target - r.now, Total(DueBy(r.now), r.slots)
  {
    match Due(r.slots, target)
    case None => Tick(r, [])
    case Some(i) =>
      FireProgress(r, i, target);
      var t := Drain(Fire(r, i), target);
      Tick(t.runner, [r.slots[i]] + t.fired)
  }

  /** One round of the drain: with a slot due, the earliest one runs first. */
  lemma DrainFires(r: Runner, target: nat, i: nat)
    requires WellTimed(r) && r.now <= target
    requires Due(r.slots, target) == Some(i)
    ensures WellTimed(Fire(r, i)) && r.now <= Fire(r, i).now <= target
    ensures Fire(r, i).now == r.now ==>
      Total(DueBy(r.now), Fire(r, i).slots) < Total(DueBy(r.now), r.slots)
    ensures Drain(r, target) ==
      Tick(Drain(Fire(r, i), target).runner, [r.slots[i]] + Drain(Fire(r, i), target).fired)
  {
    FireProgress(r, i, target);
  }

  /** The drain stops as soon as nothing is due by `target`. */
  lemma DrainStops(r: Runner, target: nat)
    requires WellTimed(r) && r.now <= target
    requires WakesAfter(r.slots, target)
    ensures Drain(r, target) == Tick(r, [])
  {
  }

  /** `process_events(elapsed)`: drains everything due by `now + elapsed`, sets
      the clock there, and returns whether any routine is still pending. */
  function ProcessEvents(r: Runner, elapsed: nat): (p: Processed)
    requires WellTimed(r)
    ensures p.runner.now == r.now + elapsed
    ensures WakesAfter(p.runner.slots, p.runner.now)
    ensures WellTimed(p.runner)
    ensures p.pending <==> ProcCount(p.runner) > 0
  {
    var target := r.now + elapsed;
    var t := Drain(r, target);
    var r' := t.runner.(now := target);
    Processed(r', ProcCount(r') > 0)
  }

  /** The slots `process_events(elapsed)` invokes, in order. */
  function Invoked(r: Runner, elapsed: nat): seq<Slot>
    requires WellTimed(r)
  {
    Drain(r, r.now + elapsed).fired
  }
}

=== FILE: runner_facts.dfy ===
/** Properties of the scheduler that hold for every runner and every routine
    body: what one drain does, what `process_events` guarantees, what
    `cancel` guarantees, and that "process events until it returns false"
    ends with every routine run. */
module RunnerFacts {
  import opened Coroutine
  import opened WakeStore
  import opened QRoutines

  // ---------------------------------------------------------------------
  // One drain
  // ---------------------------------------------------------------------

  /** A drain keeps identities handed out and unique. */
  lemma {:induction false} DrainIdentified(r: Runner, target: nat)
    requires WellTimed(r) && r.now <= target && Identified(r)
    ensures Identified(Drain(r, target).runner)
    ensures r.nextId <= Drain(r, target).runner.nextId
    decreases target - r.now, Total(DueBy(r.now), r.slots)
  {
    match Due(r.slots, target)
    case None =>
    case Some(i) =>
      DrainFires(r, target, i);
      FireIdentified(r, i);
      FireSlots(r, i);
      DrainIdentified(Fire(r, i), target);
  }

  /** A drain uses up one unit of work per invocation, only ever appends to
      the history, and appends as many characters as the store no longer
      has to append. */
  lemma {:induction false} DrainConserves(r: Runner, target: nat)
    requires WellTimed(r) && r.now <= target
    ensures Total(WorkLeft, Drain(r, target).runner.slots) + |Drain(r, target).fired|
         == Total(WorkLeft, r.slots)
    ensures |Drain(r, target).runner.history| + Total(OutputLeft, Drain(r, target).runner.slots)
         == |r.history| + Total(OutputLeft, r.slots)
    ensures r.history <= Drain(r, target).runner.history
    decreases target - r.now, Total(DueBy(r.now), r.slots)
  {
    match Due(r.slots, target)
    case None =>
    case Some(i) =>
      DrainFires(r, target, i);
      FireConserves(r, i);
      FireShape(r, i);
      DrainConserves(Fire(r, i), target);
  }

  /** A slot not yet due by `target` is still in the store after the drain,
      unchanged, and was not invoked. */
  lemma {:induction false} DrainLeavesSlot(r: Runner, target: nat, x: Slot)
    requires WellTimed(r) && r.now <= target && Identified(r)
    requires x in r.slots && target < x.wake
    ensures x in Drain(r, target).runner.slots
    ensures !HasId(Drain(r, target).fired, x.id)
    decreases target - r.now, Total(DueBy(r.now), r.slots)
  {
    match Due(r.slots, target)
    case None =>
    case Some(i) =>
      DrainFires(r, target, i);
      var j :| 0 <= j < |r.slots| && r.slots[j] == x;
      assert j != i;
      assert r.slots[i].id != x.id;
      FireKeepsOthers(r, i, j);
      FireIdentified(r, i);
      var r' := Fire(r, i);
      DrainLeavesSlot(r', target, x);
      HasIdCons(r.slots[i], Drain(r', target).fired, x.id);
  }

  /** Every slot of the store due by `target` is invoked by the drain. */
  lemma {:induction false} DueIsFired(r: Runner, target: nat, x: Slot)
    requires WellTimed(r) && r.now <= target
    requires x in r.slots && x.wake <= target
    ensures x in Drain(r, target).fired
    decreases target - r.now, Total(DueBy(r.now), r.slots)
  {
    var j :| 0 <= j < |r.slots| && r.slots[j] == x;
    match Due(r.slots, target)
    case None =>
      assert false;
    case Some(i) =>
      DrainFires(r, target, i);
      var r' := Fire(r, i);
      if j != i {
        FireKeepsOthers(r, i, j);
        DueIsFired(r', target, x);
      }
      assert Drain(r, target).fired == [r.slots[i]] + Drain(r', target).fired;
  }

  /** Each slot of `fired` was in `slots` or is due after `now`. */
  predicate FromStoreOrLater(fired: seq<Slot>, slots: seq<Slot>, now: nat)
  {
    forall k :: 0 <= k < |fired| ==> fired[k] in slots || now < fired[k].wake
  }

  /** Where the invoked slots come from: each was in the store at the start
      or is due after the starting clock, and none is due outside
      [clock, target]. */
  lemma {:induction false} DrainFiredFrom(r: Runner, target: nat)
    requires WellTimed(r) && r.now <= target
    ensures WakesFrom(Drain(r, target).fired, r.now)
    ensures WakesBy(Drain(r, target).fired, target)
    ensures FromStoreOrLater(Drain(r, target).fired, r.slots, r.now)
    decreases target - r.now, Total(DueBy(r.now), r.slots)
  {
    match Due(r.slots, target)
    case None =>
    case Some(i) =>
      DrainFires(r, target, i);
      FireSlots(r, i);
      FireShape(r, i);
      var r' := Fire(r, i);
      DrainFiredFrom(r', target);
      var t' := Drain(r', target);
      var fired := [r.slots[i]] + t'.fired;
      assert Drain(r, target).fired == fired;
      forall k | 0 <= k < |fired|
        ensures r.now <= fired[k].wake <= target
        ensures fired[k] in r.slots || r.now < fired[k].wake
      {
        if k > 0 {
          var y := fired[k];
          assert y == t'.fired[k - 1];
          if y in r'.slots && y.wake == r.now {
            var j :| 0 <= j < |r.slots| && j != i && y == r.slots[j];
          }
        }
      }
  }

  /** Within one drain the slots run in strictly increasing order of wake
      time, equal wake times in ascending identity order. */
  lemma {:induction false} DrainInOrder(r: Runner, target: nat)
    requires WellTimed(r) && r.now <= target && Identified(r)
    ensures InOrder(Drain(r, target).fired)
    decreases target - r.now, Total(DueBy(r.now), r.slots)
  {
    match Due(r.slots, target)
    case None =>
    case Some(i) =>
      DrainFires(r, target, i);
      FireShape(r, i);
      FireIdentified(r, i);
      var r' := Fire(r, i);
      DrainInOrder(r', target);
      DrainFiredFrom(r', target);
      var s := r.slots[i];
      var rest := Drain(r', target).fired;
      forall k | 0 <= k < |rest|
        ensures Before(s, rest[k])
      {
        if rest[k] in r'.slots {
          FireLeavesLater(r, i, rest[k]);
        }
      }
      InOrderCons(s, rest);
  }

  /** The characters the segments of the invoked slots append, in order. */
  function Outputs(fired: seq<Slot>): string
  {
    if |fired| == 0 then [] else Step(fired[0].body).out + Outputs(fired[1..])
  }

  lemma OutputsCons(s: Slot, rest: seq<Slot>)
    ensures Outputs([s] + rest) == Step(s.body).out + Outputs(rest)
  {
    assert ([s] + rest)[1..] == rest;
  }

  /** A drain appends to the history exactly the outputs of the segments it
      invokes, in the order it invokes them. */
  lemma {:induction false} DrainHistory(r: Runner, target: nat)
    requires WellTimed(r) && r.now <= target
    ensures Drain(r, target).runner.history == r.history + Outputs(Drain(r, target).fired)
    decreases target - r.now, Total(DueBy(r.now), r.slots)
  {
    match Due(r.slots, target)
    case None =>
      assert Drain(r, target) == Tick(r, []);
      assert r.history + Outputs([]) == r.history;
    case Some(i) =>
      DrainFires(r, target, i);
      FireInvokes(r, i);
      var r' := Fire(r, i);
      DrainHistory(r', target);
      HistoryLink(r.history, r'.history, Drain(r', target).runner.history, r.slots[i], Drain(r', target).fired);
  }

  /** One invocation followed by the rest of a drain appends the invocation's
      output and then the rest's. */
  lemma HistoryLink(h: string, h': string, last: string, s: Slot, rest: seq<Slot>)
    requires h' == h + Step(s.body).out && last == h' + Outputs(rest)
    ensures last == h + Outputs([s] + rest)
  {
    OutputsCons(s, rest);
  }

  /** A drain never brings back an identity that is no longer in the store. */
  lemma {:induction false} DrainKeepsGone(r: Runner, target: nat, id: nat)
    requires WellTimed(r) && r.now <= target
    requires !HasId(r.slots, id) && id < r.nextId
    ensures !HasId(Drain(r, target).runner.slots, id)
    ensures id < Drain(r, target).runner.nextId
    ensures !HasId(Drain(r, target).fired, id)
    decreases target - r.now, Total(DueBy(r.now), r.slots)
  {
    match Due(r.slots, target)
    case None =>
    case Some(i) =>
      DrainFires(r, target, i);
      FireKeepsGone(r, i, id);
      var r' := Fire(r, i);
      DrainKeepsGone(r', target, id);
      HasIdCons(r.slots[i], Drain(r', target).fired, id);
  }

  /** A drain up to `target` schedules nothing after `target + Horizon`. */
  lemma {:induction false} DrainBounded(r: Runner, target: nat)
    requires WellTimed(r) && r.now <= target
    requires WakesBy(r.slots, target + Horizon)
    ensures WakesBy(Drain(r, target).runner.slots, target + Horizon)
    decreases target - r.now, Total(DueBy(r.now), r.slots)
  {
    match Due(r.slots, target)
    case None =>
    case Some(i) =>
      DrainFires(r, target, i);
      FireBounded(r, i, target + Horizon);
      DrainBounded(Fire(r, i), target);
  }

  // ---------------------------------------------------------------------
  // process_events
  // ---------------------------------------------------------------------

  /** `process_events` keeps the runner invariant and never reuses identities. */
  lemma ProcessEventsKeepsValid(r: Runner, elapsed: nat)
    requires Valid(r)
    ensures Valid(ProcessEvents(r, elapsed).runner)
    ensures r.nextId <= ProcessEvents(r, elapsed).runner.nextId
  {
    DrainIdentified(r, r.now + elapsed);
  }

  /** A routine is not invoked before its wake time: a slot due after
      `now + elapsed` stays in the store unchanged and is not among the slots
      invoked. */
  lemma NothingRunsEarly(r: Runner, elapsed: nat)
    requires Valid(r)
    ensures forall x :: x in r.slots && r.now + elapsed < x.wake ==>
      x in ProcessEvents(r, elapsed).runner.slots && !HasId(Invoked(r, elapsed), x.id)
  {
    LaterStay(r, elapsed);
    LaterNotInvoked(r, elapsed);
  }

  /** A slot due after `now + elapsed` is still in the store afterwards. The
      first half of `NothingRunsEarly`, proved apart. */
  lemma LaterStay(r: Runner, elapsed: nat)
    requires Valid(r)
    ensures forall x :: x in r.slots && r.now + elapsed < x.wake ==> x in ProcessEvents(r, elapsed).runner.slots
  {
    forall x | x in r.slots && r.now + elapsed < x.wake
      ensures x in ProcessEvents(r, elapsed).runner.slots
    {
      DrainLeavesSlot(r, r.now + elapsed, x);
    }
  }

  /** A slot due after `now + elapsed` is not invoked. The second half of
      `NothingRunsEarly`, proved apart. */
  lemma LaterNotInvoked(r: Runner, elapsed: nat)
    requires Valid(r)
    ensures forall x :: x in r.slots && r.now + elapsed < x.wake ==> !HasId(Invoked(r, elapsed), x.id)
  {
    forall x | x in r.slots && r.now + elapsed < x.wake
      ensures !HasId(Invoked(r, elapsed), x.id)
    {
      DrainLeavesSlot(r, r.now + elapsed, x);
    }
  }

  /** With nothing due by `now + elapsed`, `process_events` only moves the clock. */
  lemma QuietTick(r: Runner, elapsed: nat)
    requires WellTimed(r)
    requires WakesAfter(r.slots, r.now + elapsed)
    ensures ProcessEvents(r, elapsed).runner == r.(now := r.now + elapsed)
    ensures Invoked(r, elapsed) == []
  {
    DrainStops(r, r.now + elapsed);
  }

  /** `process_events` invokes exactly the routines due in the interval it
      covers: each routine pending and due by `now + elapsed` is invoked, and
      everything invoked was due in that interval (routines registered or
      rescheduled during the call included). It invokes them in wake-time
      order, ties in identity order; everything still pending afterwards is
      due later. */
  lemma RunsInWakeOrder(r: Runner, elapsed: nat)
    requires Valid(r)
    ensures WakesFrom(Invoked(r, elapsed), r.now) && WakesBy(Invoked(r, elapsed), r.now + elapsed)
    ensures InOrder(Invoked(r, elapsed))
    ensures WakesAfter(ProcessEvents(r, elapsed).runner.slots, r.now + elapsed)
    ensures forall x :: x in r.slots && x.wake <= r.now + elapsed ==> x in Invoked(r, elapsed)
  {
    InvokedWithin(r, elapsed);
    InvokedInOrder(r, elapsed);
    DueRuns(r, elapsed);
  }

  /** Everything `process_events` invokes was due in the interval it covers.
      The first clause of `RunsInWakeOrder`, proved apart. */
  lemma InvokedWithin(r: Runner, elapsed: nat)
    requires WellTimed(r)
    ensures WakesFrom(Invoked(r, elapsed), r.now) && WakesBy(Invoked(r, elapsed), r.now + elapsed)
  {
    DrainFiredFrom(r, r.now + elapsed);
  }

  /** `process_events` invokes in (wake, id) order. The second clause of
      `RunsInWakeOrder`, proved apart. */
  lemma InvokedInOrder(r: Runner, elapsed: nat)
    requires Valid(r)
    ensures InOrder(Invoked(r, elapsed))
  {
    DrainInOrder(r, r.now + elapsed);
  }

  /** Each routine pending and due by `now + elapsed` is invoked. The last
      clause of `RunsInWakeOrder`, proved apart to keep each proof small. */
  lemma DueRuns(r: Runner, elapsed: nat)
    requires WellTimed(r)
    ensures forall x :: x in r.slots && x.wake <= r.now + elapsed ==> x in Invoked(r, elapsed)
  {
    DueFired(r, r.now + elapsed);
  }

  /** A slot that a firing leaves in the store due by `target` (a routine the
      body just registered, or the body itself resumed) runs in the same drain. */
  lemma RegisteredRunsSameCall(r: Runner, target: nat, i: nat, x: Slot)
    requires WellTimed(r) && r.now <= target
    requires Due(r.slots, target) == Some(i)
    requires x in Fire(r, i).slots && x.wake <= target
    ensures x in Drain(r, target).fired
  {
    DrainFires(r, target, i);
    DueIsFired(Fire(r, i), target, x);
    assert Drain(r, target).fired == [r.slots[i]] + Drain(Fire(r, i), target).fired;
  }

  /** Every slot of the store due by `target` is among the ones the drain fires:
      `DueIsFired` for all slots at once, which `DueRuns` restates for
      `process_events`. */
  lemma DueFired(r: Runner, target: nat)
    requires WellTimed(r) && r.now <= target
    ensures forall x :: x in r.slots && x.wake <= target ==> x in Drain(r, target).fired
  {
    forall x | x in r.slots && x.wake <= target
      ensures x in Drain(r, target).fired
    {
      DueIsFired(r, target, x);
    }
  }

  /** A cancelled routine is gone for good: after `cancel(id)` the count drops
      at once, and no later `process_events` invokes it or brings it back. */
  lemma CancelledNeverRuns(r: Runner, id: nat, elapsed: nat)
    requires Valid(r) && id < r.nextId
    ensures HasId(r.slots, id) ==> ProcCount(Cancel(r, id)) == ProcCount(r) - 1
    ensures !HasId(ProcessEvents(Cancel(r, id), elapsed).runner.slots, id)
    ensures id < ProcessEvents(Cancel(r, id), elapsed).runner.nextId
    ensures !HasId(Invoked(Cancel(r, id), elapsed), id)
  {
    var c := Cancel(r, id);
    assert WellTimed(c) && !HasId(c.slots, id) && id < c.nextId;
    GoneStaysGone(c, id, elapsed);
  }

  /** `cancel` removes nothing but the cancelled routine. */
  lemma CancelKeepsOthers(r: Runner, id: nat)
    ensures forall j :: 0 <= j < |r.slots| && r.slots[j].id != id ==> r.slots[j] in Cancel(r, id).slots
  {
    WithoutKeepsOthers(r.slots, id);
  }

  /** An identity absent from the store stays absent and is never invoked,
      across any number of further calls: the step that lets the guarantee
      of `CancelledNeverRuns` be chained tick after tick. */
  lemma GoneStaysGone(r: Runner, id: nat, elapsed: nat)
    requires WellTimed(r) && !HasId(r.slots, id) && id < r.nextId
    ensures !HasId(ProcessEvents(r, elapsed).runner.slots, id)
    ensures id < ProcessEvents(r, elapsed).runner.nextId
    ensures !HasId(Invoked(r, elapsed), id)
  {
    GoneStaysOut(r, id, elapsed);
    GoneNotInvoked(r, id, elapsed);
  }

  /** An identity no slot holds is still held by none afterwards. The store
      half of `GoneStaysGone`, proved apart. */
  lemma GoneStaysOut(r: Runner, id: nat, elapsed: nat)
    requires WellTimed(r) && !HasId(r.slots, id) && id < r.nextId
    ensures !HasId(ProcessEvents(r, elapsed).runner.slots, id)
    ensures id < ProcessEvents(r, elapsed).runner.nextId
  {
    DrainKeepsGone(r, r.now + elapsed, id);
  }

  /** An identity no slot holds is never invoked. The invocation half of
      `GoneStaysGone`, proved apart. */
  lemma GoneNotInvoked(r: Runner, id: nat, elapsed: nat)
    requires WellTimed(r) && !HasId(r.slots, id) && id < r.nextId
    ensures !HasId(Invoked(r, elapsed), id)
  {
    DrainKeepsGone(r, r.now + elapsed, id);
  }

  /** `cancel` right after `run` gives back the store as it was; only the
      identity counter has moved on. */
  lemma CancelUndoesRun(r: Runner, body: Body, delay: int)
    requires Identified(r)
    ensures var reg := Run(r, body, delay);
      Cancel(reg.runner, reg.id) == r.(nextId := r.nextId + 1)
  {
    var reg := Run(r, body, delay);
    var s := reg.runner.slots[|r.slots|];
    assert reg.runner.slots == r.slots + [s];
    WithoutAppend(r.slots, [s], reg.id);
    WithoutCounts(r.slots, reg.id);
    assert Without([s], reg.id) == [] + Without([], reg.id);
  }

  lemma {:induction false} WithoutAppend(a: seq<Slot>, b: seq<Slot>, id: nat)
    ensures Without(a + b, id) == Without(a, id) + Without(b, id)
    decreases |a|
  {
    if |a| == 0 {
      assert a + b == b;
    } else {
      assert (a + b)[1..] == a[1..] + b;
      WithoutAppend(a[1..], b, id);
    }
  }

  /** `process_events` uses up one unit of work per invocation and appends
      to the history as many characters as the pending routines no longer
      owe (which characters, and in which order: `ProcessEventsHistory`). */
  lemma ProcessEventsConserves(r: Runner, elapsed: nat)
    requires WellTimed(r)
    ensures var p := ProcessEvents(r, elapsed);
      Total(WorkLeft, p.runner.slots) + |Invoked(r, elapsed)| == Total(WorkLeft, r.slots)
    ensures var p := ProcessEvents(r, elapsed);
      |p.runner.history| + Total(OutputLeft, p.runner.slots) == |r.history| + Total(OutputLeft, r.slots)
    ensures r.history <= ProcessEvents(r, elapsed).runner.history
  {
    ProcessEventsUsesWork(r, elapsed);
    ProcessEventsAppends(r, elapsed);
  }

  /** Each invocation uses up one unit of the work the store still owed. The
      work clause of `ProcessEventsConserves`, proved apart. */
  lemma ProcessEventsUsesWork(r: Runner, elapsed: nat)
    requires WellTimed(r)
    ensures var p := ProcessEvents(r, elapsed);
      Total(WorkLeft, p.runner.slots) + |Invoked(r, elapsed)| == Total(WorkLeft, r.slots)
  {
    DrainConserves(r, r.now + elapsed);
  }

  /** The history grows by as many characters as the store no longer owes. The
      history clauses of `ProcessEventsConserves`, proved apart. */
  lemma ProcessEventsAppends(r: Runner, elapsed: nat)
    requires WellTimed(r)
    ensures var p := ProcessEvents(r, elapsed);
      |p.runner.history| + Total(OutputLeft, p.runner.slots) == |r.history| + Total(OutputLeft, r.slots)
    ensures r.history <= ProcessEvents(r, elapsed).runner.history
  {
    DrainConserves(r, r.now + elapsed);
  }

  /** `process_events` appends to the history exactly the outputs of the
      segments it invokes, in the order it invokes them. */
  lemma ProcessEventsHistory(r: Runner, elapsed: nat)
    requires WellTimed(r)
    ensures ProcessEvents(r, elapsed).runner.history == r.history + Outputs(Invoked(r, elapsed))
  {
    DrainHistory(r, r.now + elapsed);
  }

  /** With every slot due within `Horizon` of the clock and at least
      `Horizon` elapsing, `process_events` runs something if anything is
      pending, and keeps every slot due within `Horizon` of the new clock. */
  lemma ProcessEventsProgress(r: Runner, elapsed: nat)
    requires WellTimed(r) && WakesBy(r.slots, r.now + Horizon) && Horizon <= elapsed
    ensures |r.slots| > 0 ==> |Invoked(r, elapsed)| > 0
    ensures WakesBy(ProcessEvents(r, elapsed).runner.slots, ProcessEvents(r, elapsed).runner.now + Horizon)
  {
    var target := r.now + elapsed;
    DrainBounded(r, target);
    if |r.slots| > 0 {
      var i := Earliest(r.slots);
      assert Due(r.slots, target) == Some(i);
      DrainFires(r, target, i);
    }
  }

  /** `while (runner.process_events(elapsed)) {}`: repeats `process_events`
      until it returns false. With every pending routine due within
      `Horizon` and each call covering at least `Horizon`, every call runs
      something, so the loop ends; it ends with no routine pending and with
      as many characters appended to the history as the routines owed. */
  function DrainUntilIdle(r: Runner, elapsed: nat): (r': Runner)
    requires WellTimed(r) && WakesBy(r.slots, r.now + Horizon) && Horizon <= elapsed
    ensures ProcCount(r') == 0
    ensures r.history <= r'.history
    ensures |r'.history| == |r.history| + Total(OutputLeft, r.slots)
    decreases Total(WorkLeft, r.slots)
  {
    var p := ProcessEvents(r, elapsed);
    ProcessEventsConserves(r, elapsed);
    ProcessEventsProgress(r, elapsed);
    WorkAtLeastCount(p.runner.slots);
    if p.pending then
      DrainUntilIdle(p.runner, elapsed)
    else
      p.runner
  }

  /** `n` calls of `process_events(elapsed)` in a row. */
  function Ticks(r: Runner, n: nat, elapsed: nat): (r': Runner)
    requires WellTimed(r)
    ensures WellTimed(r')
    ensures r.now <= r'.now
    decreases n
  {
    if n == 0 then r else ProcessEvents(Ticks(r, n - 1, elapsed), elapsed).runner
  }

  // ---------------------------------------------------------------------
  // Reachable runners
  // ---------------------------------------------------------------------

  /** A call a client makes on the runner. */
  datatype Call = RunCall(body: Body, delay: int) | CancelCall(id: nat) | TickCall(elapsed: nat)

  /** The runner after a fresh runner receives `calls` in order. Every such
      runner keeps the invariant: no slot due before the clock, identities
      handed out in increasing order and never shared, and the clock never
      goes back. */
  function Replay(calls: seq<Call>): (r: Runner)
    ensures Valid(r)
    ensures |calls| > 0 && calls[|calls| - 1].TickCall? ==>
      r.now == Replay(calls[..|calls| - 1]).now + calls[|calls| - 1].elapsed
    ensures |calls| > 0 ==> Replay(calls[..|calls| - 1]).now <= r.now
  {
    if |calls| == 0 then Init()
    else
      var before := Replay(calls[..|calls| - 1]);
      match calls[|calls| - 1]
      case RunCall(body, delay) => Run(before, body, delay).runner
      case CancelCall(id) => Cancel(before, id)
      case TickCall(elapsed) =>
        ProcessEventsKeepsValid(before, elapsed);
        ProcessEvents(before, elapsed).runner
  }
}

=== FILE: scenarios.dfy ===
/** The test cases of tests/qroutines_tests.cpp replayed on the model: each
    lemma follows one test call by call and states what the test requires of
    the runner and the history at that point. */
module Scenarios {
  import opened Coroutine
  import opened WakeStore
  import opened QRoutines
  import opened RunnerFacts

  /** `DrainFires` for a firing whose result `r'` is already known, so that the
      replays below name that runner instead of unfolding `Fire` again. */
  lemma DrainThrough(r: Runner, target: nat, i: nat, r': Runner)
    requires WellTimed(r) && r.now <= target
    requires Due(r.slots, target) == Some(i) && Fire(r, i) == r'
    ensures WellTimed(r') && r'.now <= target
    ensures Drain(r, target) == Tick(Drain(r', target).runner, [r.slots[i]] + Drain(r', target).fired)
  {
    DrainFires(r, target, i);
  }

  // ---------------------------------------------------------------------
  // "Run a few simple routines." (tests:9-45)
  // ---------------------------------------------------------------------

  /** Routine 1 appends '2' after 30, routine 2 appends '1' after 20. */
  function BasicStart(): Runner
  {
    Run(Run(Init(), OneShot("2"), 30).runner, OneShot("1"), 20).runner
  }

  lemma BasicRegisters()
    ensures BasicStart() == Runner(0, 2, [Slot(0, 30, OneShot("2")), Slot(1, 20, OneShot("1"))], [])
  {
    var r1 := Run(Init(), OneShot("2"), 30).runner;
    assert r1 == Runner(0, 1, [Slot(0, 30, OneShot("2"))], []);
    assert r1.slots + [Slot(1, 20, OneShot("1"))] == [Slot(0, 30, OneShot("2")), Slot(1, 20, OneShot("1"))];
  }

  /** The runner after the first pulse of 16. */
  function BasicWaiting(): Runner
  {
    Runner(16, 2, [Slot(0, 30, OneShot("2")), Slot(1, 20, OneShot("1"))], [])
  }

  /** A first pulse ending before 20 runs nothing. */
  lemma BasicFirstPulse(elapsed: nat)
    requires elapsed < 20
    ensures ProcessEvents(BasicStart(), elapsed).runner == BasicWaiting().(now := elapsed)
    ensures Invoked(BasicStart(), elapsed) == []
  {
    BasicRegisters();
    QuietTick(BasicStart(), elapsed);
  }

  /** A second pulse reaching 30 runs both routines, the one registered
      second (due earlier) first. */
  lemma BasicSecondPulse(elapsed: nat)
    requires 14 <= elapsed
    ensures ProcessEvents(BasicWaiting(), elapsed).runner == Runner(16 + elapsed, 2, [], "12")
    ensures Invoked(BasicWaiting(), elapsed) == [Slot(1, 20, OneShot("1")), Slot(0, 30, OneShot("2"))]
  {
    var target := 16 + elapsed;
    var r1 := Runner(20, 2, [Slot(0, 30, OneShot("2"))], "1");
    var r2 := Runner(30, 2, [], "12");
    BasicFiresAt20(target);
    DrainThrough(BasicWaiting(), target, 1, r1);
    BasicFiresAt30(target);
    DrainThrough(r1, target, 0, r2);
    DrainStops(r2, target);
  }

  lemma BasicFiresAt20(target: nat)
    requires 30 <= target
    ensures Due(BasicWaiting().slots, target) == Some(1)
    ensures Fire(BasicWaiting(), 1) == Runner(20, 2, [Slot(0, 30, OneShot("2"))], "1")
  {
  }

  lemma BasicFiresAt30(target: nat)
    requires 30 <= target
    ensures Due([Slot(0, 30, OneShot("2"))], target) == Some(0)
    ensures Fire(Runner(20, 2, [Slot(0, 30, OneShot("2"))], "1"), 0) == Runner(30, 2, [], "12")
  {
  }

  // ---------------------------------------------------------------------
  // "Cancel a routine before it runs" (tests:47-64)
  // ---------------------------------------------------------------------

  function CancelStart(): Registered
  {
    Run(Init(), OneShot(""), 3)
  }

  /** The routine is cancelled before its delay of 3 has elapsed: the count
      drops to 0 at once, and neither a pulse of 0 nor one of 1000 invokes it. */
  lemma CancelBeforeRun()
    ensures ProcCount(CancelStart().runner) == 1
    ensures ProcCount(Cancel(CancelStart().runner, CancelStart().id)) == 0
    ensures Invoked(Cancel(CancelStart().runner, CancelStart().id), 0) == []
    ensures ProcCount(ProcessEvents(Cancel(CancelStart().runner, CancelStart().id), 0).runner) == 0
    ensures Invoked(ProcessEvents(Cancel(CancelStart().runner, CancelStart().id), 0).runner, 1000) == []
    ensures ProcCount(ProcessEvents(ProcessEvents(Cancel(CancelStart().runner, CancelStart().id), 0).runner, 1000).runner) == 0
  {
    var reg := CancelStart();
    assert reg.runner.slots == [Slot(0, 3, OneShot(""))];
    var c := Cancel(reg.runner, reg.id);
    assert HasId(reg.runner.slots, reg.id) by { assert reg.runner.slots[0].id == reg.id; }
    assert c.slots == [];
    QuietTick(c, 0);
    QuietTick(ProcessEvents(c, 0).runner, 1000);
  }

  // ---------------------------------------------------------------------
  // "Call a routine with arguments." (tests:66-80)
  // ---------------------------------------------------------------------

  /** The routine holding a copy of the string, registered with delay 0. */
  function ArgsStart(): Runner
  {
    Run(Init(), OneShot(""), 0).runner
  }

  lemma ArgsRegisters()
    ensures ArgsStart() == Runner(0, 1, [Slot(0, 0, OneShot(""))], [])
  {
  }

  lemma ArgsFires(target: nat)
    ensures Due([Slot(0, 0, OneShot(""))], target) == Some(0)
    ensures Fire(Runner(0, 1, [Slot(0, 0, OneShot(""))], []), 0) == Runner(0, 1, [], [])
  {
  }

  /** A pulse of any length runs the routine exactly once. */
  lemma RunsWithZeroDelay(elapsed: nat)
    ensures ArgsStart() == Runner(0, 1, [Slot(0, 0, OneShot(""))], [])
    ensures ProcCount(ArgsStart()) == 1
    ensures Invoked(ArgsStart(), elapsed) == [Slot(0, 0, OneShot(""))]
    ensures ProcCount(ProcessEvents(ArgsStart(), elapsed).runner) == 0
  {
    var r := Runner(0, 1, [Slot(0, 0, OneShot(""))], []);
    ArgsRegisters();
    ArgsFires(elapsed);
    DrainThrough(r, elapsed, 0, Runner(0, 1, [], []));
    DrainStops(Runner(0, 1, [], []), elapsed);
  }

  // ---------------------------------------------------------------------
  // "Sleeping routines." (tests:82-122)
  // ---------------------------------------------------------------------

  /** The two-segment routine due at 30 and the routine appending '2' due at 35. */
  function SleepyStart(): Runner
  {
    Run(Run(Init(), TwoSegment(0), 30).runner, OneShot("2"), 35).runner
  }

  lemma SleepyRegisters()
    ensures SleepyStart() == Runner(0, 2, [Slot(0, 30, TwoSegment(0)), Slot(1, 35, OneShot("2"))], [])
  {
    var r1 := Run(Init(), TwoSegment(0), 30).runner;
    assert r1 == Runner(0, 1, [Slot(0, 30, TwoSegment(0))], []);
    assert r1.slots + [Slot(1, 35, OneShot("2"))] == [Slot(0, 30, TwoSegment(0)), Slot(1, 35, OneShot("2"))];
  }

  /** The pulse ending at 30 runs the first segment, which sleeps for 10. */
  lemma SleepyPulseAt30()
    ensures ProcessEvents(Runner(25, 2, [Slot(0, 30, TwoSegment(0)), Slot(1, 35, OneShot("2"))], []), 5).runner
         == Runner(30, 2, [Slot(0, 40, TwoSegment(1)), Slot(1, 35, OneShot("2"))], "1")
  {
    var r := Runner(25, 2, [Slot(0, 30, TwoSegment(0)), Slot(1, 35, OneShot("2"))], []);
    assert Due(r.slots, 30) == Some(0);
    DrainFires(r, 30, 0);
    var r1 := Fire(r, 0);
    assert r1 == Runner(30, 2, [Slot(0, 40, TwoSegment(1)), Slot(1, 35, OneShot("2"))], "1");
    DrainStops(r1, 30);
  }

  /** The pulse ending at 35 runs the second routine. */
  lemma SleepyPulseAt35()
    ensures ProcessEvents(Runner(30, 2, [Slot(0, 40, TwoSegment(1)), Slot(1, 35, OneShot("2"))], "1"), 5).runner
         == Runner(35, 2, [Slot(0, 40, TwoSegment(1))], "12")
  {
    var r := Runner(30, 2, [Slot(0, 40, TwoSegment(1)), Slot(1, 35, OneShot("2"))], "1");
    assert Due(r.slots, 35) == Some(1);
    DrainFires(r, 35, 1);
    var r1 := Fire(r, 1);
    assert r1 == Runner(35, 2, [Slot(0, 40, TwoSegment(1))], "12");
    DrainStops(r1, 35);
  }

  /** The pulse ending at 40 resumes the first routine after its yield. */
  lemma SleepyPulseAt40()
    ensures ProcessEvents(Runner(35, 2, [Slot(0, 40, TwoSegment(1))], "12"), 5).runner
         == Runner(40, 2, [], "123")
  {
    var r := Runner(35, 2, [Slot(0, 40, TwoSegment(1))], "12");
    assert Due(r.slots, 40) == Some(0);
    DrainFires(r, 40, 0);
    var r1 := Fire(r, 0);
    assert r1 == Runner(40, 2, [], "123");
    DrainStops(r1, 40);
  }

  /** The runner after `n` of the twelve pulses of 5. */
  function SleepyState(n: nat): Runner
  {
    if n <= 5 then Runner(5 * n, 2, [Slot(0, 30, TwoSegment(0)), Slot(1, 35, OneShot("2"))], [])
    else if n == 6 then Runner(30, 2, [Slot(0, 40, TwoSegment(1)), Slot(1, 35, OneShot("2"))], "1")
    else if n == 7 then Runner(35, 2, [Slot(0, 40, TwoSegment(1))], "12")
    else Runner(5 * n, 2, [], "123")
  }

  /** Pulse `n` takes the runner from state `n - 1` to state `n`. */
  lemma SleepyPulse(n: nat)
    requires 0 < n
    ensures WellTimed(SleepyState(n - 1))
    ensures ProcessEvents(SleepyState(n - 1), 5).runner == SleepyState(n)
  {
    var r := SleepyState(n - 1);
    if n <= 5 || 8 < n {
      QuietTick(r, 5);
    } else if n == 6 {
      SleepyPulseAt30();
    } else if n == 7 {
      SleepyPulseAt35();
    } else {
      SleepyPulseAt40();
    }
  }

  lemma {:induction false} SleepyTicks(n: nat)
    ensures WellTimed(SleepyState(0))
    ensures Ticks(SleepyState(0), n, 5) == SleepyState(n)
  {
    if n > 0 {
      SleepyTicks(n - 1);
      SleepyPulse(n);
    }
  }

  /** Pulses of 5: nothing runs in the first five, '1' runs in the sixth,
      '2' in the seventh, '3' in the eighth; from then on, as after the
      twelve pulses of the test, the history is '1', '2', '3' and nothing
      is left. */
  lemma SleepingRoutines()
    ensures ProcCount(SleepyStart()) == 2 && SleepyStart().history == []
    ensures forall n :: n <= 5 ==> Ticks(SleepyStart(), n, 5).history == [] && ProcCount(Ticks(SleepyStart(), n, 5)) == 2
    ensures forall n :: 8 <= n ==> Ticks(SleepyStart(), n, 5).history == "123" && ProcCount(Ticks(SleepyStart(), n, 5)) == 0
  {
    SleepyRegisters();
    assert SleepyStart() == SleepyState(0);
    forall n | true
      ensures Ticks(SleepyStart(), n, 5) == SleepyState(n)
    {
      SleepyTicks(n);
    }
  }

  // ---------------------------------------------------------------------
  // "Kicking off routines from routines." (tests:124-192)
  // ---------------------------------------------------------------------

  /** The spawning routine, due at 10; its loop counter holds 80 before it starts. */
  function SpawnStart(): Runner
  {
    Run(Init(), Spawner(0, 80), 10).runner
  }

  /** The spawner at resume point 1 after iteration `k`, due at `wake`. */
  function SpawnerAt(k: int, wake: nat): Slot
  {
    Slot(0, wake, Spawner(1, k))
  }

  /** The child registered by iteration `k`, due 50 after that iteration ran. */
  function ChildSlot(k: nat): Slot
  {
    Slot(k + 1, 60 + 10 * k, Child(k))
  }

  /** The pulse ending at 10 runs the first iteration: one child is
      registered, none has run. */
  lemma SpawnPulseAt10()
    ensures ProcessEvents(Runner(5, 1, [Slot(0, 10, Spawner(0, 80))], []), 5).runner
         == Runner(10, 2, [SpawnerAt(0, 20), ChildSlot(0)], [])
  {
    var r := Runner(5, 1, [Slot(0, 10, Spawner(0, 80))], []);
    assert Due(r.slots, 10) == Some(0);
    DrainFires(r, 10, 0);
    FireShape(r, 0);
    var r1 := Fire(r, 0);
    assert r1 == Runner(10, 2, [SpawnerAt(0, 20), ChildSlot(0)], []);
    DrainStops(r1, 10);
  }

  /** The spawner at the head of the store, due at `10 * (k + 2)` and
      registered before every child, is the next slot to run. */
  lemma SpawnerDue(k: nat, kids: seq<Slot>, target: nat)
    requires 10 * (k + 2) <= target
    requires forall j :: 0 <= j < |kids| ==> 10 * (k + 2) <= kids[j].wake && kids[j].id != 0
    ensures Due([SpawnerAt(k, 10 * (k + 2))] + kids, target) == Some(0)
  {
    var slots := [SpawnerAt(k, 10 * (k + 2))] + kids;
    var e := Earliest(slots);
    assert IsEarliest(slots, 0);
  }

  /** One iteration of the loop: the spawner registers child `k + 1`, due
      50 later, and sleeps for 10. */
  lemma SpawnerIteration(k: nat, now: nat, kids: seq<Slot>)
    requires k + 1 < SpawnCount && now <= 10 * (k + 2)
    ensures Fire(Runner(now, k + 2, [SpawnerAt(k, 10 * (k + 2))] + kids, []), 0)
         == Runner(10 * (k + 2), k + 3, [SpawnerAt(k + 1, 10 * (k + 3))] + kids + [ChildSlot(k + 1)], [])
  {
    var r := Runner(now, k + 2, [SpawnerAt(k, 10 * (k + 2))] + kids, []);
    FireShape(r, 0);
  }

  /** The children registered by iterations 0 to `k`, in registration order. */
  function Kids(k: nat): seq<Slot>
  {
    if k == 0 then [ChildSlot(0)] else Kids(k - 1) + [ChildSlot(k)]
  }

  lemma {:induction false} KidsShape(k: nat)
    ensures |Kids(k)| == k + 1
    ensures forall j :: 0 <= j <= k ==> Kids(k)[j] == ChildSlot(j)
  {
    if k > 0 {
      KidsShape(k - 1);
    }
  }

  /** No child is due before 60, and none has the spawner's identity. */
  lemma KidsFrom60(k: nat)
    ensures forall j :: 0 <= j < |Kids(k)| ==> 60 <= Kids(k)[j].wake && Kids(k)[j].id != 0
  {
    KidsShape(k);
  }

  /** The runner after iteration `k` of the loop ran at `10 * (k + 1)`. */
  function AfterIteration(k: nat): Runner
  {
    Runner(10 * (k + 1), k + 2, [SpawnerAt(k, 10 * (k + 2))] + Kids(k), [])
  }

  lemma AfterIterationWellTimed(k: nat)
    requires k <= 4
    ensures WellTimed(AfterIteration(k)) && AfterIteration(k).now <= 59
  {
    KidsFrom60(k);
    assert WakesFrom(AfterIteration(k).slots, AfterIteration(k).now);
  }

  /** Iteration `k + 1` runs within the pulse ending at 59. */
  lemma SpawnerRound(k: nat)
    requires k < 4
    ensures Due(AfterIteration(k).slots, 59) == Some(0)
    ensures Fire(AfterIteration(k), 0) == AfterIteration(k + 1)
  {
    KidsFrom60(k);
    SpawnerDue(k, Kids(k), 59);
    SpawnerIteration(k, 10 * (k + 1), Kids(k));
  }

  /** Within the pulse ending at 59, the drain from the runner after
      iteration `k` ends where the drain after iteration 4 ends. */
  lemma {:induction false} SpawnerRounds(k: nat)
    requires k <= 4
    ensures WellTimed(AfterIteration(k)) && AfterIteration(k).now <= 59
    ensures Drain(AfterIteration(k), 59).runner == Drain(AfterIteration(4), 59).runner
    decreases 4 - k
  {
    AfterIterationWellTimed(k);
    if k < 4 {
      SpawnerRound(k);
      DrainFires(AfterIteration(k), 59, 0);
      SpawnerRounds(k + 1);
    }
  }

  /** After iteration 4 nothing is due by 59: the drain stops there. */
  lemma SpawnerPausesAt59()
    ensures WellTimed(AfterIteration(4)) && AfterIteration(4).now <= 59
    ensures Drain(AfterIteration(4), 59) == Tick(AfterIteration(4), [])
  {
    DrainStops(AfterIteration(4), 59);
  }

  lemma SpawnerDrainTo59()
    ensures WellTimed(AfterIteration(0))
    ensures ProcessEvents(AfterIteration(0), 49).runner == AfterIteration(4).(now := 59)
  {
    SpawnerRounds(0);
    SpawnerPausesAt59();
  }

  lemma SpawnerStates()
    ensures AfterIteration(0) == Runner(10, 2, [SpawnerAt(0, 20), ChildSlot(0)], [])
    ensures AfterIteration(4).(now := 59)
         == Runner(59, 6, [SpawnerAt(4, 60), ChildSlot(0), ChildSlot(1), ChildSlot(2), ChildSlot(3), ChildSlot(4)], [])
  {
    KidsShape(4);
    assert AfterIteration(4).slots
        == [SpawnerAt(4, 60), ChildSlot(0), ChildSlot(1), ChildSlot(2), ChildSlot(3), ChildSlot(4)];
  }

  /** The pulse of 49 ending at 59 runs the iterations due at 20, 30, 40 and
      50: four more children are registered, none has run. */
  lemma SpawnPulseAt59()
    ensures ProcessEvents(Runner(10, 2, [SpawnerAt(0, 20), ChildSlot(0)], []), 49).runner
         == Runner(59, 6, [SpawnerAt(4, 60), ChildSlot(0), ChildSlot(1), ChildSlot(2), ChildSlot(3), ChildSlot(4)], [])
  {
    SpawnerDrainTo59();
    SpawnerStates();
  }

  /** The runner after the pulse ending at 60: iteration 5 has run and
      registered child 5, and child 0 has run and is gone. */
  function AfterPulse60(): Runner
  {
    Runner(60, 7, [SpawnerAt(5, 70)] + Kids(5)[1..], "c")
  }

  /** At 60 the spawner and child 0 are both due; the spawner, registered
      first, runs first. */
  lemma SpawnerFirstAt60()
    ensures WellTimed(AfterIteration(4).(now := 59))
    ensures Due(AfterIteration(4).slots, 60) == Some(0)
    ensures Fire(AfterIteration(4).(now := 59), 0) == Runner(60, 7, [SpawnerAt(5, 70)] + Kids(5), [])
  {
    KidsFrom60(4);
    SpawnerDue(4, Kids(4), 60);
    SpawnerIteration(4, 59, Kids(4));
  }

  lemma ChildZeroRunsAt60()
    ensures WellTimed(Runner(60, 7, [SpawnerAt(5, 70)] + Kids(5), []))
    ensures Due([SpawnerAt(5, 70)] + Kids(5), 60) == Some(1)
    ensures Fire(Runner(60, 7, [SpawnerAt(5, 70)] + Kids(5), []), 1) == AfterPulse60()
  {
    var r := Runner(60, 7, [SpawnerAt(5, 70)] + Kids(5), []);
    KidsShape(5);
    assert IsEarliest(r.slots, 1);
    FireShape(r, 1);
    RemoveAtIndex(r.slots, 1);
    assert RemoveAt(r.slots, 1) == [SpawnerAt(5, 70)] + Kids(5)[1..];
  }

  lemma NothingElseAt60()
    ensures WellTimed(AfterPulse60())
    ensures Drain(AfterPulse60(), 60) == Tick(AfterPulse60(), [])
  {
    KidsShape(5);
    DrainStops(AfterPulse60(), 60);
  }

  /** The pulse of 1 ending at 60 runs child 0 and registers child 5. */
  lemma SpawnPulseAt60()
    ensures WellTimed(AfterIteration(4).(now := 59))
    ensures ProcessEvents(AfterIteration(4).(now := 59), 1).runner == AfterPulse60()
  {
    var r := AfterIteration(4).(now := 59);
    SpawnerFirstAt60();
    DrainFires(r, 60, 0);
    ChildZeroRunsAt60();
    DrainFires(Fire(r, 0), 60, 1);
    NothingElseAt60();
  }

  lemma {:induction false} KidsOutput(k: nat)
    ensures Total(OutputLeft, Kids(k)) == k + 1
  {
    if k == 0 {
      assert Total(OutputLeft, Kids(0)) == Out(Child(0)) + Total(OutputLeft, []);
    } else {
      KidsOutput(k - 1);
      TotalAppend(OutputLeft, Kids(k - 1), [ChildSlot(k)]);
      assert Total(OutputLeft, [ChildSlot(k)]) == Out(Child(k)) + Total(OutputLeft, []);
    }
  }

  /** After the pulse ending at 60, 99 characters are still to be appended:
      94 by the children of the iterations the spawner has yet to run, and
      one by each of the five children pending. */
  lemma OutputLeftAt60()
    ensures Total(OutputLeft, AfterPulse60().slots) == 99
    ensures WellTimed(AfterPulse60()) && WakesBy(AfterPulse60().slots, AfterPulse60().now + Horizon)
  {
    KidsShape(5);
    KidsOutput(5);
    var rest := Kids(5)[1..];
    assert Kids(5) == [ChildSlot(0)] + rest;
    TotalAppend(OutputLeft, [ChildSlot(0)], rest);
    assert Total(OutputLeft, [ChildSlot(0)]) == 1 + Total(OutputLeft, []);
    TotalAppend(OutputLeft, [SpawnerAt(5, 70)], rest);
    assert Total(OutputLeft, [SpawnerAt(5, 70)]) == Out(Spawner(1, 5)) + Total(OutputLeft, []);
    assert [SpawnerAt(5, 70)] + rest == AfterPulse60().slots;
  }

  /** The runner after the first pulse of 5: nothing has run. */
  function SpawnWaiting(): Runner
  {
    Runner(5, 1, [Slot(0, 10, Spawner(0, 80))], [])
  }

  lemma SpawnRegisters()
    ensures SpawnStart() == Runner(0, 1, [Slot(0, 10, Spawner(0, 80))], [])
    ensures ProcessEvents(SpawnStart(), 5).runner == SpawnWaiting()
  {
    var r := Runner(0, 1, [Slot(0, 10, Spawner(0, 80))], []);
    assert SpawnStart() == r;
    QuietTick(r, 5);
  }

  /** The test call by call: the counts and history sizes it requires after
      each call up to the pulse ending at 60. */
  lemma KickingOffRoutines()
    ensures ProcCount(SpawnStart()) == 1 && SpawnStart().history == []
    ensures ProcessEvents(SpawnStart(), 5).runner == SpawnWaiting()
    ensures ProcCount(SpawnWaiting()) == 1 && SpawnWaiting().history == []
    ensures ProcessEvents(SpawnWaiting(), 5).runner == AfterIteration(0)
    ensures ProcCount(AfterIteration(0)) == 2 && AfterIteration(0).history == []
    ensures ProcessEvents(AfterIteration(0), 49).runner == AfterIteration(4).(now := 59)
    ensures ProcCount(AfterIteration(4)) == 6 && AfterIteration(4).history == []
    ensures ProcessEvents(AfterIteration(4).(now := 59), 1).runner == AfterPulse60()
    ensures ProcCount(AfterPulse60()) == 6 && |AfterPulse60().history| == 1
  {
    SpawnRegisters();
    SpawnPulseAt10();
    SpawnerStates();
    SpawnerDrainTo59();
    KidsShape(4);
    KidsShape(5);
    SpawnPulseAt60();
  }

  /** The loop `while (runner.process_events(1000))` after the pulse ending
      at 60 ends with all 100 children run and nothing pending. */
  lemma AllChildrenRun()
    ensures WellTimed(AfterPulse60()) && WakesBy(AfterPulse60().slots, AfterPulse60().now + Horizon)
    ensures |DrainUntilIdle(AfterPulse60(), 1000).history| == 100
    ensures ProcCount(DrainUntilIdle(AfterPulse60(), 1000)) == 0
  {
    OutputLeftAt60();
  }
}

=== FILE: wake_store.dfy ===
/** The wake store of the scheduler: the registered routine slots, the choice
    of the next slot to invoke, and the counts kept over the slots. */
module WakeStore {
  import opened Coroutine

  datatype Option<T> = None | Some(value: T)

  /** A registered routine: its identity, the virtual time at which it is due,
      and its body with the body's resume point. */
  datatype Slot = Slot(id: nat, wake: nat, body: Body)

  /** `a` is invoked before `b` when both are due: earlier wake time first,
      equal wake times in ascending identity (registration) order. */
  predicate Before(a: Slot, b: Slot)
  {
    a.wake < b.wake || (a.wake == b.wake && a.id < b.id)
  }

  /** No slot of `slots` is to be invoked before `slots[i]`. */
  predicate IsEarliest(slots: seq<Slot>, i: nat)
  {
    i < |slots| && forall j :: 0 <= j < |slots| ==> !Before(slots[j], slots[i])
  }

  /** The index of the slot to invoke first. */
  function Earliest(slots: seq<Slot>): (i: nat)
    requires |slots| > 0
    ensures IsEarliest(slots, i)
  {
    if |slots| == 1 then 0
    else
      var k := Earliest(slots[1..]) + 1;
      assert forall j :: 1 <= j < |slots| ==> slots[j] == slots[1..][j - 1];
      if Before(slots[k], slots[0]) then k else 0
  }

  /** The slot to invoke next when the clock may run up to `target`: the
      earliest slot when it is due by then, and none otherwise. */
  function Due(slots: seq<Slot>, target: nat): (d: Option<nat>)
    ensures d.Some? ==> IsEarliest(slots, d.value) && slots[d.value].wake <= target
    ensures d.None? <==> WakesAfter(slots, target)
  {
    if |slots| == 0 then None
    else
      var i := Earliest(slots);
      if slots[i].wake <= target then Some(i) else None
  }

  function RemoveAt(slots: seq<Slot>, i: nat): seq<Slot>
    requires i < |slots|
  {
    slots[..i] + slots[i + 1..]
  }

  lemma RemoveAtIndex(slots: seq<Slot>, i: nat)
    requires i < |slots|
    ensures |RemoveAt(slots, i)| == |slots| - 1
    ensures forall j :: 0 <= j < i ==> RemoveAt(slots, i)[j] == slots[j]
    ensures forall j :: i < j < |slots| ==> RemoveAt(slots, i)[j - 1] == slots[j]
  {
  }

  predicate HasId(slots: seq<Slot>, id: nat)
  {
    exists j :: 0 <= j < |slots| && slots[j].id == id
  }

  lemma HasIdCons(s: Slot, rest: seq<Slot>, id: nat)
    ensures HasId([s] + rest, id) <==> s.id == id || HasId(rest, id)
  {
    var all := [s] + rest;
    assert all[0] == s;
    if HasId(rest, id) {
      var k :| 0 <= k < |rest| && rest[k].id == id;
      assert all[k + 1] == rest[k];
    }
    if HasId(all, id) && s.id != id {
      var k :| 0 <= k < |all| && all[k].id == id;
      assert rest[k - 1] == all[k];
    }
  }

  /** The identities held by the slots. */
  function Ids(slots: seq<Slot>): set<nat>
  {
    if |slots| == 0 then {} else {slots[0].id} + Ids(slots[1..])
  }

  lemma {:induction false} IdsHeld(slots: seq<Slot>, id: nat)
    ensures id in Ids(slots) <==> HasId(slots, id)
    decreases |slots|
  {
    if |slots| > 0 {
      IdsHeld(slots[1..], id);
      assert slots == [slots[0]] + slots[1..];
      HasIdCons(slots[0], slots[1..], id);
    }
  }

  /** No two slots share an identity. */
  predicate UniqueIds(slots: seq<Slot>)
  {
    forall i, j :: 0 <= i < j < |slots| ==> slots[i].id != slots[j].id
  }

  /** With identities unique, there are as many identities as slots. */
  lemma {:induction false} IdsCount(slots: seq<Slot>)
    requires UniqueIds(slots)
    ensures |Ids(slots)| == |slots|
    decreases |slots|
  {
    if |slots| > 0 {
      var tail := slots[1..];
      assert UniqueIds(tail) by {
        forall a, b | 0 <= a < b < |tail|
          ensures tail[a].id != tail[b].id
        {
          assert tail[a] == slots[a + 1] && tail[b] == slots[b + 1];
        }
      }
      IdsCount(tail);
      IdsHeld(tail, slots[0].id);
      assert !HasId(tail, slots[0].id) by {
        forall k | 0 <= k < |tail|
          ensures tail[k].id != slots[0].id
        {
          assert tail[k] == slots[k + 1];
        }
      }
    }
  }

  /** Every identity in `slots` was handed out before `next`. */
  predicate IdsBelow(slots: seq<Slot>, next: nat)
  {
    forall i :: 0 <= i < |slots| ==> slots[i].id < next
  }

  /** No slot is due before virtual time `t`. */
  predicate WakesFrom(slots: seq<Slot>, t: nat)
  {
    forall i :: 0 <= i < |slots| ==> t <= slots[i].wake
  }

  /** Every slot is due by virtual time `t`. */
  predicate WakesBy(slots: seq<Slot>, t: nat)
  {
    forall i :: 0 <= i < |slots| ==> slots[i].wake <= t
  }

  /** Every slot is due strictly after virtual time `t`. */
  predicate WakesAfter(slots: seq<Slot>, t: nat)
  {
    forall i :: 0 <= i < |slots| ==> t < slots[i].wake
  }

  /** The slots are listed in the order they are to be invoked, none twice. */
  predicate InOrder(slots: seq<Slot>)
  {
    forall j, k :: 0 <= j < k < |slots| ==> Before(slots[j], slots[k])
  }

  /** A slot to be invoked before every slot of an ordered list heads an
      ordered list. */
  lemma InOrderCons(s: Slot, rest: seq<Slot>)
    requires InOrder(rest)
    requires forall k :: 0 <= k < |rest| ==> Before(s, rest[k])
    ensures InOrder([s] + rest)
  {
    var all := [s] + rest;
    forall j, k | 0 <= j < k < |all|
      ensures Before(all[j], all[k])
    {
      assert all[k] == rest[k - 1];
      if j > 0 {
        assert all[j] == rest[j - 1];
      }
    }
  }

  /** The slots without the one whose identity is `id`, in their order. */
  function Without(slots: seq<Slot>, id: nat): (rest: seq<Slot>)
    ensures forall k :: 0 <= k < |rest| ==> rest[k] in slots && rest[k].id != id
  {
    if |slots| == 0 then []
    else
      var tail := Without(slots[1..], id);
      assert forall k :: 0 <= k < |tail| ==> tail[k] in slots;
      if slots[0].id == id then tail else [slots[0]] + tail
  }

  /** Nothing to remove leaves the slots as they are; with identities
      unique, one slot goes and identities stay unique. */
  lemma {:induction false} WithoutCounts(slots: seq<Slot>, id: nat)
    ensures !HasId(slots, id) ==> Without(slots, id) == slots
    ensures UniqueIds(slots) && HasId(slots, id) ==> |Without(slots, id)| == |slots| - 1
    decreases |slots|
  {
    if |slots| > 0 {
      var tail := slots[1..];
      WithoutCounts(tail, id);
      assert forall j :: 1 <= j < |slots| ==> slots[j] == tail[j - 1];
      assert HasId(slots, id) && slots[0].id != id ==> HasId(tail, id);
      assert UniqueIds(slots) && slots[0].id == id ==> !HasId(tail, id);
      assert !HasId(slots, id) ==> !HasId(tail, id);
    }
  }

  lemma {:induction false} WithoutUnique(slots: seq<Slot>, id: nat)
    requires UniqueIds(slots)
    ensures UniqueIds(Without(slots, id))
    decreases |slots|
  {
    if |slots| > 0 {
      var tail := slots[1..];
      WithoutUnique(tail, id);
      var rest := Without(slots, id);
      if slots[0].id != id {
        assert rest == [slots[0]] + Without(tail, id);
        forall k | 0 <= k < |Without(tail, id)|
          ensures Without(tail, id)[k].id != slots[0].id
        {
          var y := Without(tail, id)[k];
          var m :| 0 <= m < |tail| && tail[m] == y;
          assert slots[m + 1] == y;
        }
      }
    }
  }

  /** Every slot with another identity is kept. */
  lemma {:induction false} WithoutKeepsOthers(slots: seq<Slot>, id: nat)
    ensures forall j :: 0 <= j < |slots| && slots[j].id != id ==> slots[j] in Without(slots, id)
    decreases |slots|
  {
    if |slots| > 0 {
      WithoutKeepsOthers(slots[1..], id);
      assert forall j :: 1 <= j < |slots| ==> slots[j] == slots[1..][j - 1];
    }
  }

  /** The counts kept over the slots: the work still to do, the history
      characters still to append, and the slots due by time `t`. */
  datatype Measure = WorkLeft | OutputLeft | DueBy(t: nat)

  function Weight(m: Measure, s: Slot): nat
  {
    match m
    case WorkLeft => Work(s.body)
    case OutputLeft => Out(s.body)
    case DueBy(t) => if s.wake <= t then 1 else 0
  }

  function Total(m: Measure, slots: seq<Slot>): nat
  {
    if |slots| == 0 then 0 else Weight(m, slots[0]) + Total(m, slots[1..])
  }

  lemma {:induction false} TotalAppend(m: Measure, a: seq<Slot>, b: seq<Slot>)
    ensures Total(m, a + b) == Total(m, a) + Total(m, b)
    decreases |a|
  {
    if |a| == 0 {
      assert a + b == b;
    } else {
      assert (a + b)[1..] == a[1..] + b;
      TotalAppend(m, a[1..], b);
    }
  }

  lemma TotalRemoveAt(m: Measure, slots: seq<Slot>, i: nat)
    requires i < |slots|
    ensures Total(m, RemoveAt(slots, i)) + Weight(m, slots[i]) == Total(m, slots)
  {
    assert slots == slots[..i] + ([slots[i]] + slots[i + 1..]);
    TotalAppend(m, slots[..i], [slots[i]] + slots[i + 1..]);
    TotalAppend(m, [slots[i]], slots[i + 1..]);
    TotalAppend(m, slots[..i], slots[i + 1..]);
  }

  lemma TotalUpdate(m: Measure, slots: seq<Slot>, i: nat, x: Slot)
    requires i < |slots|
    ensures Total(m, slots[i := x]) + Weight(m, slots[i]) == Total(m, slots) + Weight(m, x)
  {
    var u := slots[i := x];
    assert u == slots[..i] + ([x] + slots[i + 1..]);
    assert slots == slots[..i] + ([slots[i]] + slots[i + 1..]);
    TotalAppend(m, slots[..i], [x] + slots[i + 1..]);
    TotalAppend(m, [x], slots[i + 1..]);
    TotalAppend(m, slots[..i], [slots[i]] + slots[i + 1..]);
    TotalAppend(m, [slots[i]], slots[i + 1..]);
  }

  /** No slot is due by `t` exactly when the count of slots due by `t` is zero. */
  lemma {:induction false} NoneDue(slots: seq<Slot>, t: nat)
    ensures Total(DueBy(t), slots) == 0 <==> WakesAfter(slots, t)
    decreases |slots|
  {
    if |slots| > 0 {
      NoneDue(slots[1..], t);
      assert forall j :: 1 <= j < |slots| ==> slots[j] == slots[1..][j - 1];
    }
  }

  /** Every slot carries at least one unit of work. */
  lemma {:induction false} WorkAtLeastCount(slots: seq<Slot>)
    ensures Total(WorkLeft, slots) >= |slots|
    decreases |slots|
  {
    if |slots| > 0 {
      WorkAtLeastCount(slots[1..]);
    }
  }

  /** The slots made for the routines registered by a running body at virtual
      time `at`, with identities handed out from `firstId` on. */
  function Spawned(spawns: seq<Spawn>, at: nat, firstId: nat): seq<Slot>
  {
    if |spawns| == 0 then []
    else [Slot(firstId, at + spawns[0].delay, spawns[0].body)] + Spawned(spawns[1..], at, firstId + 1)
  }

  lemma {:induction false} SpawnedShape(spawns: seq<Spawn>, at: nat, firstId: nat)
    ensures |Spawned(spawns, at, firstId)| == |spawns|
    ensures forall k :: 0 <= k < |spawns| ==>
      Spawned(spawns, at, firstId)[k] == Slot(firstId + k, at + spawns[k].delay, spawns[k].body)
    ensures Total(WorkLeft, Spawned(spawns, at, firstId)) == SpawnsWork(spawns)
    ensures Total(OutputLeft, Spawned(spawns, at, firstId)) == SpawnsOut(spawns)
    decreases |spawns|
  {
    if |spawns| > 0 {
      SpawnedShape(spawns[1..], at, firstId + 1);
    }
  }
}
